=== FILE: README.md ===
# Political polarization agent-based model, in Dafny

This project models the simulation core of `assets/js/abm-simulation.js`.
Several hundred voters (agents) move along an ideology axis x in
[-1.1, 1.1] and a social axis y in [0, 1]. Five parties drift
opportunistically and then revert toward their base ideology. Each step
(`update()`) does the following, in order:

1. Drift the parties.
2. Rebuild a 10-column spatial grid.
3. Visit every agent in population order. Each agent joins the first
   nearest party and is pulled toward it. It is then pushed away from
   far-apart neighbours in the grid and pulled toward its friends. A media
   event may nudge every agent's x-velocity. The agent then takes noise,
   moves, loses speed to friction (×0.95) and is clamped to the box.
4. Compute the metrics: polarization (twice the standard deviation of
   ideology), judiciary capacity (kept in [0, 100]), legislative output,
   and the Gini coefficient of party adherent counts.
5. Append a metrics log entry on every tenth step.
6. Roll for a critical-capacity warning, but only when capacity is
   below 20.

The buttons are modelled too: mass radicalization, coalition, pause, reset
and CSV export. Initialisation is modelled as well: survey data or a
synthetic population, a random friendship network, and a fixed party
roster.

Every `Math.random()` call is an explicit input: `rng: nat -> real` gives
draw number k. Every operation takes a cursor and returns the cursor of the
next unread draw. Draws are read in the program's order, so a draw that a
short-circuit skips is never read. `UnitDraws(rng)` states the contract of
`Math.random()`: each draw is in [0, 1).

Three behaviours of the program shape the model:

- **The per-agent pass updates agents in place.** An agent visited later
  reads the positions and velocities that earlier agents were given in the
  same pass, while the spatial grid still holds the positions from before
  the pass.
- **A survey field of exactly 0 is redrawn, like a missing one.** This is
  the `d.ideology || …` fallback. An empty survey file gives the synthetic
  population.
- **Polarization is stored as the mean square deviation m.** The printed
  value is `2·sqrt(m)`. Each threshold test `2·sqrt(m) > t` becomes
  `m > (t/2)²`, and `Metrics.ThresholdsMatchSquareRoot` proves the two
  agree. With no agents the code computes NaN; the model writes this as
  `NotANumber`, which fails every comparison.

Object references become indices. An agent's affiliation is an index into
the party list. Friend lists live beside the agents in `Sim.network`,
because they never change after initialisation.

Modules, in dependency order:

- `Numeric`: shared real-number helpers.
- `Model`: the entities.
- `SpatialIndex`: `getBin` and the grid.
- `Inequality`: `calculateGini`.
- `PartyStrategy`: the party phase.
- `ForceModel`: the agent pass.
- `Metrics`: polarization, judiciary and legislative output.
- `Clock`: `update`, runs of steps and `loop`.
- `Setup`: `Agent`, `initSim`, `loadRealData` and reset.
- `Controls`: the buttons.
- `Export`: the CSV.

## Model

| member | source | states |
|---|---|---|
| Numeric.Clamp | assets/js/abm-simulation.js:210-214 | the two successive bounds checks leave a value inside [lo, hi], unchanged when it already was, at the violated bound otherwise |
| Numeric.MaxMin | assets/js/abm-simulation.js:231 | `Math.max(lo, Math.min(hi, v))` lies in [lo, hi] and equals v when v already does |
| Numeric.ScaledDrawIsIndex | assets/js/abm-simulation.js:69 | `floor(u * n)` for a draw in [0, 1) is an index into n agents |
| Numeric.Rescale | assets/js/abm-simulation.js:337-339 | `map` sends minA to minB and maxA to maxB, and a value inside [minA, maxA] into [minB, maxB] |
| SpatialIndex.CellOf | assets/js/abm-simulation.js:348-352 | the cell's column is the floor of x rescaled from [-1.2, 1.2] onto [0, 10], its row the floor of 10·y; inside the position box it lies in columns 0..9 and rows 0..10 |
| SpatialIndex.BuildBins | assets/js/abm-simulation.js:133-139 | an agent index is in the bucket of a cell exactly when that agent's position falls in that cell, and each bucket lists its agents once each in population order, as the `forEach` push does |
| SpatialIndex.BinRange | assets/js/abm-simulation.js:348-352 | inside the position box, bins stay within columns 0..9 and rows 0..10 |
| SpatialIndex.Neighbourhood | assets/js/abm-simulation.js:174-176 | exactly the nine cells of the 3x3 block around the agent's own cell, each offset (dx, dy) once, with dx outer and dy inner |
| SpatialIndex.AdjacentColumnsAreClose | assets/js/abm-simulation.js:348-349 | ideologies whose bin columns differ by at most one are less than 0.48 apart |
| SpatialIndex.NeighboursAreClose | assets/js/abm-simulation.js:170-179 | any agent the 3x3 grid query finds, at the positions the grid was built from, is within 0.48 in ideology, so the `> 1.0` repulsion test cannot hold for it |
| ForceModel.Repulsion | assets/js/abm-simulation.js:168-186 | summed over the 3x3 block: no push without a far (more than 1.0 apart) agent; with a non-negative strength, no far agent on the right gives a push ≥ 0 and no far agent on the left a push ≤ 0; with positive strength, far agents on one side only give a strict push toward the other side |
| ForceModel.RepulsionVanishesOnBuildPositions | assets/js/abm-simulation.js:168-186 | affective repulsion evaluated at the positions the grid was built from is exactly zero; it can only act through agents that moved earlier in the same pass |
| PartyStrategy.JumpTarget | assets/js/abm-simulation.js:123 | an opportunistic target lies in [-0.75, 0.75) |
| PartyStrategy.DriftParty | assets/js/abm-simulation.js:121-130 | only the current ideology changes; its distance to base after the step is 0.99 times the distance after the optional jump, and the jump moves a tenth of the way to the target |
| PartyStrategy.DriftParties | assets/js/abm-simulation.js:119-131 | every party keeps everything but its current ideology; one or two draws per party; every shift event is stamped with the step; with no opportunism every party reverts by the factor 0.99 |
| PartyStrategy.DriftPartiesDraws | assets/js/abm-simulation.js:119-131 | every party ends the phase as one drift makes it: only reverted when a roll at or after the cursor missed `0.01 * partyOpportunism`, or jumped toward the next draw's target when that roll hit |
| PartyStrategy.RevertShrinks | assets/js/abm-simulation.js:130 | n reversions without a jump leave 0.99^n of the distance to base |
| ForceModel.NearestParty | assets/js/abm-simulation.js:147-156 | the chosen party has minimal distance and every party listed before it is strictly farther (ties go to the first); none exactly when there are no parties |
| ForceModel.FirstNearestIsUnique | assets/js/abm-simulation.js:150-156 | at most one party satisfies the first-nearest characterisation, so the scan's choice is determined by it |
| ForceModel.Attract | assets/js/abm-simulation.js:158-166 | the affiliation is recorded, and the velocity moves toward the party's ideology and yPos, with the sign of the gap |
| ForceModel.FriendPull | assets/js/abm-simulation.js:189-191 | with friends all to the right (left), the friends' pull is non-negative (non-positive) |
| ForceModel.Nudge | assets/js/abm-simulation.js:194-197 | a media event changes only x-velocities, no event changes nothing, and every agent with positive scaled radicalization is pushed right exactly when the bias is positive, the direction the event's Right/Left label names |
| ForceModel.MediaDraw | assets/js/abm-simulation.js:194-195 | an event fires exactly when the roll is under mediaFrequency, with a bias in [-0.25, 0.25) |
| ForceModel.Integrate | assets/js/abm-simulation.js:205-214 | the agent moves by its velocity, the velocity is scaled by 0.95, and the position is clamped to the box |
| ForceModel.Steer | assets/js/abm-simulation.js:145-191 | forces 1 to 3 change only the velocity and record the first nearest party |
| ForceModel.Settle | assets/js/abm-simulation.js:201-214 | the velocity before friction is the old one plus `(u − 0.5)·noise` and `(v − 0.5)·noise`; with positive noise each component ends above 0.95 times the old one exactly when its draw is above 0.5, and for draws in [0, 1) it differs from it by at most 0.95·noise/2; the position is the old one moved by the pre-friction velocity and clamped to the box; with no noise it is the plain move |
| ForceModel.Visit | assets/js/abm-simulation.js:193-214 | the visited agent takes its own media shift and then the noise of draws u and v before friction, and moves from its position by that velocity into the box; every other agent differs at most in x-velocity, by exactly its media shift |
| ForceModel.ProcessAgent | assets/js/abm-simulation.js:145-214 | one visit: affiliation with the first nearest party, traits kept, three or four draws with the media roll first, the visited agent moved from its position by its pre-friction velocity and clamped to the box, every other agent changed only by the media nudge |
| ForceModel.VisitedAgentVelocity | assets/js/abm-simulation.js:145-208 | the visited agent's velocity before friction is its steered velocity plus its own media shift plus the noise of the visit's last two draws |
| ForceModel.AgentPass | assets/js/abm-simulation.js:145-217 | the pass keeps the population size and one count per party, reads draws forward from the cursor, and logs only media events stamped with the step |
| ForceModel.Tally | assets/js/abm-simulation.js:159 | the best party's count rises by one and every other count is unchanged; without a best party nothing changes |
| ForceModel.PassKeepsVisited | assets/js/abm-simulation.js:145-217 | later visits change an earlier-visited agent only in x-velocity |
| ForceModel.PassPlacesAgents | assets/js/abm-simulation.js:145-217 | after the pass every agent is in the box, keeps its traits, and is affiliated with the first nearest party of its pre-pass position |
| ForceModel.PassCountsEveryAgent | assets/js/abm-simulation.js:143-159 | with at least one party, the adherent counts grow by exactly the number of agents visited |
| ForceModel.PassTalliesAffiliations | assets/js/abm-simulation.js:143-159 | each party's count grows by the number of visited agents that end the pass affiliated with it |
| ForceModel.PassTotalsIdeology | assets/js/abm-simulation.js:142-216 | the running `totalIdeology` equals the sum of the agents' final ideologies |
| ForceModel.WholePass | assets/js/abm-simulation.js:141-217 | the whole pass from a zero total: all agents in bounds and affiliated, the total is the sum of final ideologies, every agent is counted once, and each party's count grows by its number of affiliated agents |
| Metrics.MeasurePolarization | assets/js/abm-simulation.js:219-223 | polarization is NaN exactly for an empty population, otherwise a non-negative mean square |
| Metrics.RunningTotalGivesPolarization | assets/js/abm-simulation.js:216-223 | the polarization computed from the running total equals the mean of the squared ideologies less the square of their mean |
| Metrics.DeviationsExpand | assets/js/abm-simulation.js:220-222 | the squared deviations about any m sum to Σx² − 2m·Σx + n·m² |
| Metrics.ConsensusHasNoPolarization | assets/js/abm-simulation.js:219-223 | a population that agrees on one ideology has zero polarization |
| Metrics.ThresholdsMatchSquareRoot | assets/js/abm-simulation.js:223-236 | comparing the mean square with (t/2)² gives the same answer as comparing `2·sqrt` of it with t, in both directions |
| Metrics.NextJudiciary | assets/js/abm-simulation.js:225-231 | capacity stays in [0, 100]; it falls by 0.1 above polarization 0.8 and rises by 0.05 otherwise (NaN included), away from the bounds |
| Metrics.LegislativeGain | assets/js/abm-simulation.js:233-240 | the gain is 0.2 exactly below 0.6, 0 exactly above 1.2, and 0.05 exactly in between or for NaN |
| Inequality.Insert | assets/js/abm-simulation.js:355 | inserting into a sorted list keeps it sorted and adds exactly that element |
| Inequality.SortAsc | assets/js/abm-simulation.js:355 | the numeric sort yields a sorted permutation with the same total |
| Inequality.Denominator | assets/js/abm-simulation.js:358 | `n² · mean` is n times the total; it falls back to 1 when n or the total is 0 |
| Inequality.Gini | assets/js/abm-simulation.js:354-359 | the coefficient is 0 exactly when all counts are equal and positive otherwise |
| Inequality.WeightedSumOfSorted | assets/js/abm-simulation.js:355-357 | on sorted counts the weighted sum is at least the first count times the total weight of its indices, and exceeds it when the counts are not all equal; from index 0 that total weight is 0 |
| Inequality.GiniAtMostOne | assets/js/abm-simulation.js:354-359 | the coefficient never exceeds 1 |
| Inequality.WeightTotalValue | assets/js/abm-simulation.js:357 | the weights `2(i+1) - n - 1` over m consecutive indices from `offset` sum to m(2·offset + m - n), which is zero over all n indices |
| Inequality.WeightedSumBound | assets/js/abm-simulation.js:357 | the absolute weighted sum is at most (n-1) times the plain total |
| Clock.LogStep | assets/js/abm-simulation.js:246-254 | an entry is appended on steps divisible by 10 and only on those |
| Clock.CriticalRoll | assets/js/abm-simulation.js:257 | the warning draw is taken only when capacity is below 20 and fires under 0.05 |
| Clock.FullPass | assets/js/abm-simulation.js:133-217 | grid, then the pass: all agents in bounds, affiliated by pre-pass position, polarization equal to the mean-of-squares form, the counts equal to each party's affiliated agents, and only media events logged; the result is the agent pass over the freshly built grid from zero counts and a zero total, so every per-visit and per-pass fact about `AgentPass` applies |
| Clock.Conclude | assets/js/abm-simulation.js:219-259 | the metrics of the step; on every tenth step exactly, a log entry holding the step, its polarization, capacity, output and the Gini (in [0, 1]) of the counts; the warning event appended exactly when the roll fires, after the old events, and the cursor past that roll |
| Clock.Tick | assets/js/abm-simulation.js:116-259 | an unpaused step: time +1, agents in bounds and affiliated, capacity in range, polarization of the final positions, parties change only in current ideology, log cadence kept, and on every tenth step a log entry with the step's metrics and the Gini of the parties' adherent counts |
| Clock.TickComposesPhases | assets/js/abm-simulation.js:116-217 | a step's new parties are the drift phase's parties, and its new agents are the full pass's agents run against the drifted parties on the draws after the drift |
| Clock.TickLogsEvents | assets/js/abm-simulation.js:116-258 | a step keeps the old events, stamps every new one with the new time, and logs the critical warning exactly when capacity ends below 20 and the step's last draw is under 0.05 |
| Clock.CadenceStep | assets/js/abm-simulation.js:246-254 | one step keeps the metrics log at one entry per ten steps, stamped 10, 20, ... |
| Clock.Update | assets/js/abm-simulation.js:113-262 | a paused update changes nothing and reads no draw; otherwise it is one tick; the network, parameters and pause flag are kept |
| Clock.RunSteps | assets/js/abm-simulation.js:329-331 | repeated updates keep the state well formed and the parameters unchanged |
| Clock.Frame | assets/js/abm-simulation.js:328-334 | one frame advances an unpaused clock by simulationSpeed steps, and by none when that is 0 or less |
| Clock.PausedRunIsIdle | assets/js/abm-simulation.js:114 | any number of paused updates leaves the state and the draw cursor untouched |
| Clock.RunAdvancesTime | assets/js/abm-simulation.js:116 | n unpaused updates advance the step counter by n |
| Clock.RunKeepsJudiciaryInRange | assets/js/abm-simulation.js:231 | judiciary capacity stays in [0, 100] over any run |
| Clock.RunLegislativeMonotone | assets/js/abm-simulation.js:234-240 | legislative output never decreases, and gains at most 0.2 per step |
| Clock.RunKeepsLogCadence | assets/js/abm-simulation.js:246-254 | the metrics log keeps floor(time/10) entries stamped 10, 20, ... |
| Clock.LogAfterReset | assets/js/abm-simulation.js:246-254 | n steps from a reset state leave n/10 log entries stamped 10, 20, ... in order |
| Clock.RunPlacesAgents | assets/js/abm-simulation.js:210-214 | after at least one unpaused step every agent is in the position box |
| Setup.MakeAgent | assets/js/abm-simulation.js:2-11 | the constructor keeps x and y, draws vx and vy in [-0.001, 0.001), and draws radicalization from [0, 0.4) for demographic < 0.3 and from [0, 0.1) otherwise |
| Setup.SyntheticIdeology | assets/js/abm-simulation.js:60-61 | six uniform draws recentred and divided by 3 give an ideology in [-1, 1) |
| Setup.SyntheticAgents | assets/js/abm-simulation.js:58-64 | agent j is the constructor applied to the six-draw ideology at cursor k + 11j and the y draw after it, reading 11 draws per agent; with draws in [0, 1) every ideology lies in [-1, 1) and every agent is in the box |
| Setup.LoadRecord | assets/js/abm-simulation.js:97 | a truthy field is taken as is; a missing or zero field is redrawn, ideology in [-1, 1) and y in [0, 1) |
| Setup.LoadRecords | assets/js/abm-simulation.js:97 | one agent per record, in order, with the truthy fields kept |
| Setup.LoadRealData | assets/js/abm-simulation.js:93-102 | a failed load or an empty file yields no agents and reads no draw; otherwise the first 600 records at most become agents |
| Setup.AddFriends | assets/js/abm-simulation.js:68-71 | a friend list never holds the agent itself or a duplicate; f is listed exactly when some draw picked it and it is not the agent |
| Setup.FriendsOf | assets/js/abm-simulation.js:68-71 | at most five distinct friends, none the agent itself, exactly the agents its five draws picked |
| Setup.LinkFirst | assets/js/abm-simulation.js:67-72 | the first m friend lists are each at most five distinct valid agents, excluding the agent itself |
| Setup.LinkFirstDraws | assets/js/abm-simulation.js:67-72 | agent j's friend list comes from draws 5j to 5j+4 of the network phase |
| Setup.LinkFriends | assets/js/abm-simulation.js:66-72 | the social network is valid: every friend is an agent, no self-links, no duplicates, at most five per agent |
| Setup.FriendsArePicks | assets/js/abm-simulation.js:67-72 | f is a friend of i exactly when one of i's five draws picked f and f is not i |
| Setup.InitialParties | assets/js/abm-simulation.js:75-81 | five parties ordered left to right with bases in [-0.8, 0.8], starting at their base, radius 0.25 |
| Setup.InitialState | assets/js/abm-simulation.js:30-47 | the initial state object is well formed, unpaused, with an empty log |
| Setup.InitialPopulation | assets/js/abm-simulation.js:57-64 | survey data gives at most 600 agents; a failed or empty load gives 600 synthetic agents in the box, agent j with the six-draw ideology at cursor k + 11j, in [-1, 1) |
| Setup.InitSim | assets/js/abm-simulation.js:53-88 | the agents are the initial population (survey agents up to 600, else 600 synthetic ones), the network is the friend linking read from the draws after the population's, five per agent, the fixed party roster, and counters reset; parameters, pause flag and events kept |
| Setup.InitSimFriendsArePicks | assets/js/abm-simulation.js:57-72 | in a fresh simulation, f is a friend of agent i exactly when one of i's five draws after the population's picked f and f is not i |
| Setup.Reset | assets/js/abm-simulation.js:434-440 | the reset is logged at the old time, then the state is initialised again with the initial population |
| Controls.Radicalize | assets/js/abm-simulation.js:415 | only x changes: it moves 0.3 further from the centre and keeps its side |
| Controls.MassRadicalize | assets/js/abm-simulation.js:411-419 | every agent is radicalized, nothing else changes, and the event is logged |
| Controls.MassRadicalizationLeavesBox | assets/js/abm-simulation.js:414-416 | there is no clamp: an agent at x = 1.0 ends at 1.3, outside the box |
| Controls.FormCoalition | assets/js/abm-simulation.js:421-432 | with two or more parties the first moves to 0.1 left of the second and the event is logged; otherwise nothing happens |
| Controls.FormCoalitionIdempotent | assets/js/abm-simulation.js:425-429 | pressing the coalition button a second time leaves every party where the first press put it |
| Controls.TogglePause | assets/js/abm-simulation.js:479-486 | the flag flips and the new state is logged |
| Controls.TogglePauseTwice | assets/js/abm-simulation.js:482-484 | pressing pause twice restores the simulation, with a pause and a resume entry added to the event log |
| Export.NatToStringRoundTrip | assets/js/abm-simulation.js:493 | the decimal text of a step counter reads back as that counter |
| Export.ExportCsv | assets/js/abm-simulation.js:491-494 | the CSV built line by line equals the header line followed by one row per log entry, each line newline-terminated |
| Export.CsvLines | assets/js/abm-simulation.js:491-494 | split at newlines, the text is the header, one row per log entry in order, and an empty tail |
| Export.RowFields | assets/js/abm-simulation.js:493 | a row splits at commas into its five fields, and the first reads back as the entry's step |
| Export.ExportEvent | assets/js/abm-simulation.js:499 | exporting logs one event at the current time and changes nothing else |

## Left out

- Rendering is left out: `render`, `hexToRgba`, `updateUI`, canvas sizing and the DOM. None of these feeds back into the state.
- `fetch` and JSON parsing become a parameter, `Option<seq<Record>>`. `None` stands for a failed load. A field that parses to a non-number is not modelled; only a present number, zero, or a missing field is.
- Floating point is modelled as exact reals: no rounding and no NaN arithmetic beyond the empty-population polarization.
- `toFixed(2)` becomes an abstract formatter parameter. The Blob and download steps are left out.
- `requestAnimationFrame` is left out; `Clock.Frame` is one frame's worth of updates.
- Each reset starts another `loop()` chain, so frames run more updates after a reset. The model runs one chain.
- `initSim` is asynchronous, and frames already scheduled may run while survey data loads. The model treats `Setup.InitSim` as atomic.
- Slider handlers only assign parameters, so the parameters are inputs (`Sim.params`). The model does not validate them, and neither do the handlers.
- `Party.strength` is never updated by the source, so it is not modelled. The per-step counts are `PassResult.strengths`.
- Event order: the page prepends log entries and the model appends them. The message text is reduced to an `EventKind`.
- `Export.Row` relies on the formatters for the four real columns. The CSV claims assume formatters that never emit a comma or a newline.
- Probabilistic claims are not stated: event frequencies and the distribution of the synthetic ideology.
- PartyStrategy.DriftParties: its own contract gives each party's exact value only when opportunism is 0 or less. `DriftPartiesDraws` covers the general case, but it says only that the deciding roll is some draw at or after the cursor, not which one.
- ForceModel.FriendPull: states only the sign of the pull, not its value.
- ForceModel.Steer: states what is kept and the affiliation. The velocity changes are stated by `Attract`, `Repulsion` and `FriendPull`.
- ForceModel.AgentPass: its own contract gives sizes, the cursor and the events. Placement, affiliation, counts and the ideology total are stated by the `Pass…` lemmas and `WholePass`.
- ForceModel.Repulsion: states the sign of the push and when it vanishes, not its size (strength times the far agents on the left less those on the right).
- ForceModel.ProcessAgent: the visited agent's velocity is stated by `VisitedAgentVelocity`, a lemma about it, rather than by its own contract.
- Setup.InitSim: `initSim` ends by calling `loop()` (line 90), which runs `simulationSpeed` updates before it returns. `Setup.InitSim` stops before that call; the frame it starts is `Clock.Frame`.
- Setup.LoadRealData: states the agent count and the kept ideology. The y field and the redraws are stated by `LoadRecord` and `LoadRecords`.
- Clock.RunSteps: states only that the state stays well formed. Time, bounds, capacity and the log are stated by the `Run…` lemmas.

=== FILE: clock.dfy ===
/** One tick of the simulation (`update`) and a frame of `loop`: the party
    phase, the grid, the agent pass, the metrics, the metrics log and the
    critical-capacity warning, in that order. */
module Clock {
  import opened Numeric
  import opened Model
  import opened SpatialIndex
  import opened PartyStrategy
  import opened ForceModel
  import opened Metrics
  import opened Inequality

  /** The state after a step and the cursor of the next unread draw. */
  datatype Stepped = Stepped(sim: Sim, next: nat)

  /** One adherent count of 0 per party. */
  function Zeros(n: nat): (z: seq<nat>)
    ensures |z| == n && SumNat(z) == 0
    ensures forall q :: 0 <= q < n ==> z[q] == 0
  {
    if n == 0 then [] else [0] + Zeros(n - 1)
  }

  /** The metrics entry is appended only on steps that are a multiple of 10. */
  function LogStep(log: seq<LogEntry>, entry: LogEntry): (r: seq<LogEntry>)
    ensures entry.time % 10 == 0 ==> r == log + [entry]
    ensures entry.time % 10 != 0 ==> r == log
  {
    if entry.time % 10 == 0 then log + [entry] else log
  }

  /** The warning roll `judiciaryCapacity < 20 && Math.random() < 0.05`: the
      draw is taken only when capacity is below 20. */
  function CriticalRoll(judiciary: real, rng: Rng, k: nat): (r: (bool, nat))
    ensures judiciary < 20.0 ==> r == (rng(k) < 0.05, k + 1)
    ensures judiciary >= 20.0 ==> r == (false, k)
  {
    if judiciary < 20.0 then (rng(k) < 0.05, k + 1) else (false, k)
  }

  /** The pass over all agents, from an empty tally and a zero total. */
  function FullPass(s: Sim, ps: seq<Party>, rng: Rng, k: nat, t: nat): (r: PassResult)
    requires WellFormed(s)
    ensures |r.agents| == |s.agents| && |r.strengths| == |ps|
    ensures r.next >= k
    ensures AllInBounds(r.agents)
    ensures forall j :: 0 <= j < |s.agents| ==>
      r.agents[j].affiliation == NearestParty(s.agents[j].x, ps) && SameTraits(s.agents[j], r.agents[j])
    ensures MeasurePolarization(r.agents, r.total) == PolarizationOf(r.agents)
    ensures |ps| > 0 ==> SumNat(r.strengths) == |s.agents|
    ensures r.strengths == AdherentCounts(r.agents, |ps|)
    ensures forall e :: e in r.events ==> e.time == t && e.kind.MediaNudge?
    ensures r == AgentPass(s.agents, s.network, ps, BuildBins(s.agents), s.params, rng, k, t, 0, Zeros(|ps|), 0.0)
  {
    hide *;
    NetworkOf(s);
    var bins := BuildBins(s.agents);
    var r := AgentPass(s.agents, s.network, ps, bins, s.params, rng, k, t, 0, Zeros(|ps|), 0.0);
    WholePass(s.agents, s.network, ps, bins, s.params, rng, k, t, Zeros(|ps|));
    RunningTotalGivesPolarization(r.agents, r.total);
    CountsFromZeros(Zeros(|ps|), r.strengths, r.agents);
    r
  }

  lemma NetworkOf(s: Sim)
    requires WellFormed(s)
    ensures NetworkValid(s.network, |s.agents|)
  {
  }

  /** Counts that started from zero and grew by each party's adherents are
      the adherent counts. */
  lemma CountsFromZeros(zeros: seq<nat>, counts: seq<nat>, agents: seq<Agent>)
    requires |zeros| == |counts| && forall q :: 0 <= q < |zeros| ==> zeros[q] == 0
    requires forall q :: 0 <= q < |counts| ==> counts[q] == zeros[q] + Adherents(agents, q)
    ensures counts == AdherentCounts(agents, |counts|)
  {
  }

  /** The end of an unpaused step at time t: metrics from the pass, the
      metrics log entry every tenth step, and the critical-capacity warning. */
  function Conclude(s: Sim, parties: seq<Party>, pass: PassResult, events: seq<Event>, rng: Rng, t: nat): (r: Stepped)
    ensures r.next >= pass.next
    ensures r.sim.agents == pass.agents && r.sim.parties == parties && r.sim.network == s.network
    ensures r.sim.time == t && r.sim.params == s.params && r.sim.paused == s.paused
    ensures r.sim.polarization == MeasurePolarization(pass.agents, pass.total)
    ensures r.sim.judiciaryCapacity == NextJudiciary(s.judiciaryCapacity, r.sim.polarization)
    ensures r.sim.legislativeOutput - s.legislativeOutput == LegislativeGain(r.sim.polarization)
    ensures t % 10 == 0 ==>
      && |r.sim.metricsLog| == |s.metricsLog| + 1
      && r.sim.metricsLog[..|s.metricsLog|] == s.metricsLog
      && r.sim.metricsLog[|s.metricsLog|].time == t
      && 0.0 <= r.sim.metricsLog[|s.metricsLog|].gini <= 1.0
      && r.sim.metricsLog[|s.metricsLog|] == LogEntry(t, r.sim.polarization, r.sim.judiciaryCapacity,
                                                       r.sim.legislativeOutput, Gini(pass.strengths))
    ensures t % 10 != 0 ==> r.sim.metricsLog == s.metricsLog
    ensures var roll := CriticalRoll(r.sim.judiciaryCapacity, rng, pass.next);
      && r.next == roll.1
      && r.sim.events == s.events + events + pass.events + (if roll.0 then [Event(t, JudiciaryCritical)] else [])
  {
    var polarization := MeasurePolarization(pass.agents, pass.total);
    var judiciary := NextJudiciary(s.judiciaryCapacity, polarization);
    var legislative := s.legislativeOutput + LegislativeGain(polarization);
    var gini := Gini(pass.strengths);
    GiniAtMostOne(pass.strengths);
    var log := LogStep(s.metricsLog, LogEntry(t, polarization, judiciary, legislative, gini));
    var critical := CriticalRoll(judiciary, rng, pass.next);
    var warning := if critical.0 then [Event(t, JudiciaryCritical)] else [];
    var sim := s.(
      agents := pass.agents,
      parties := parties,
      time := t,
      polarization := polarization,
      judiciaryCapacity := judiciary,
      legislativeOutput := legislative,
      metricsLog := log,
      events := s.events + events + pass.events + warning);
    Stepped(sim, critical.1)
  }

  /** The body of `update()` past its paused check. */
  function Tick(s: Sim, rng: Rng, k: nat): (r: Stepped)
    requires WellFormed(s)
    ensures r.sim.time == s.time + 1 && r.next >= k
    ensures WellFormed(r.sim) && r.sim.network == s.network && |r.sim.agents| == |s.agents|
    ensures r.sim.params == s.params && r.sim.paused == s.paused
    ensures AllInBounds(r.sim.agents)
    ensures 0.0 <= r.sim.judiciaryCapacity <= 100.0
    ensures r.sim.polarization == PolarizationOf(r.sim.agents)
    ensures r.sim.legislativeOutput - s.legislativeOutput == LegislativeGain(r.sim.polarization)
    ensures r.sim.judiciaryCapacity == NextJudiciary(s.judiciaryCapacity, r.sim.polarization)
    ensures LogCadence(s) ==> LogCadence(r.sim)
    ensures |r.sim.parties| == |s.parties|
    ensures forall q :: 0 <= q < |s.parties| ==>
      r.sim.parties[q] == s.parties[q].(currentIdeology := r.sim.parties[q].currentIdeology)
    ensures forall j :: 0 <= j < |s.agents| ==>
      SameTraits(s.agents[j], r.sim.agents[j]) &&
      r.sim.agents[j].affiliation == NearestParty(s.agents[j].x, r.sim.parties)
    ensures r.sim.time % 10 == 0 ==>
      && |r.sim.metricsLog| == |s.metricsLog| + 1
      && r.sim.metricsLog[..|s.metricsLog|] == s.metricsLog
      && r.sim.metricsLog[|s.metricsLog|] == LogEntry(r.sim.time, r.sim.polarization, r.sim.judiciaryCapacity,
           r.sim.legislativeOutput, Gini(AdherentCounts(r.sim.agents, |r.sim.parties|)))
    ensures r.sim.time % 10 != 0 ==> r.sim.metricsLog == s.metricsLog
  {
    hide *;
    NetworkOf(s);
    var t := s.time + 1;
    var drift := DriftParties(s.parties, s.params.partyOpportunism, rng, k, t, 0);
    var pass := FullPass(s, drift.parties, rng, drift.next, t);
    var r := Conclude(s, drift.parties, pass, drift.events, rng, t);
    assert LogCadence(s) ==> LogCadence(r.sim) by {
      if LogCadence(s) {
        CadenceStep(s, r.sim);
      }
    }
    KeepsWellFormed(s, r.sim);
    r
  }

  /** A step is its phases in order: the parties are those of the drift
      phase, and the agents those of the full pass run against the drifted
      parties on the draws after the drift. */
  lemma TickComposesPhases(s: Sim, rng: Rng, k: nat)
    requires WellFormed(s)
    ensures var drift := DriftParties(s.parties, s.params.partyOpportunism, rng, k, s.time + 1, 0);
      var r := Tick(s, rng, k);
      && r.sim.parties == drift.parties
      && r.sim.agents == FullPass(s, drift.parties, rng, drift.next, s.time + 1).agents
  {
    hide FullPass, DriftParties, Conclude, AgentPass, BuildBins, Zeros;
    NetworkOf(s);
    var t := s.time + 1;
    var drift := DriftParties(s.parties, s.params.partyOpportunism, rng, k, t, 0);
    var pass := FullPass(s, drift.parties, rng, drift.next, t);
    assert Tick(s, rng, k) == Conclude(s, drift.parties, pass, drift.events, rng, t);
  }

  lemma KeepsWellFormed(s: Sim, s': Sim)
    requires WellFormed(s)
    requires s'.network == s.network && |s'.agents| == |s.agents|
    ensures WellFormed(s')
  {
  }

  /** The narrative events of one step: everything logged before is kept,
      every new entry carries the new time, and the critical-capacity warning
      is among them exactly when capacity ended below 20 and the step's last
      draw, the warning roll, came in under 0.05. */
  lemma TickLogsEvents(s: Sim, rng: Rng, k: nat)
    requires WellFormed(s)
    ensures var r := Tick(s, rng, k);
      && |r.sim.events| >= |s.events| && r.sim.events[..|s.events|] == s.events
      && (forall e :: e in r.sim.events[|s.events|..] ==> e.time == r.sim.time)
      && (r.sim.judiciaryCapacity < 20.0 ==> r.next > k)
      && (Event(r.sim.time, JudiciaryCritical) in r.sim.events[|s.events|..] <==>
            r.sim.judiciaryCapacity < 20.0 && r.next > 0 && rng(r.next - 1) < 0.05)
  {
    hide FullPass, DriftParties, Conclude, MeasurePolarization, PolarizationOf, NextJudiciary, LegislativeGain,
      Gini, AdherentCounts, AgentPass, NearestParty, BuildBins, Zeros, LogCadence, AllInBounds, SameTraits;
    NetworkOf(s);
    var t := s.time + 1;
    var drift := DriftParties(s.parties, s.params.partyOpportunism, rng, k, t, 0);
    var pass := FullPass(s, drift.parties, rng, drift.next, t);
    var r := Conclude(s, drift.parties, pass, drift.events, rng, t);
    assert Tick(s, rng, k) == r;
    var roll := CriticalRoll(r.sim.judiciaryCapacity, rng, pass.next);
    StepEvents(s.events, drift.events, pass.events, roll.0, r.sim.events, t);
  }

  /** The events of one step: the party shifts and media nudges, all other
      than a warning, then the warning when its roll fired. */
  lemma StepEvents(before: seq<Event>, shifts: seq<Event>, nudges: seq<Event>, fired: bool, after: seq<Event>, t: nat)
    requires forall e :: e in shifts ==> e.time == t && e.kind.PartyShift?
    requires forall e :: e in nudges ==> e.time == t && e.kind.MediaNudge?
    requires after == before + shifts + nudges + (if fired then [Event(t, JudiciaryCritical)] else [])
    ensures |after| >= |before| && after[..|before|] == before
    ensures forall e :: e in after[|before|..] ==> e.time == t
    ensures Event(t, JudiciaryCritical) in after[|before|..] <==> fired
  {
    var added := after[|before|..];
    assert added == shifts + nudges + (if fired then [Event(t, JudiciaryCritical)] else []);
  }

  /** One step of the clock keeps the log shape: the new entry, if any, is
      the one stamped with the new time. */
  lemma CadenceStep(s: Sim, s': Sim)
    requires LogCadence(s)
    requires s'.time == s.time + 1
    requires s'.time % 10 == 0 ==>
      && |s'.metricsLog| == |s.metricsLog| + 1
      && s'.metricsLog[..|s.metricsLog|] == s.metricsLog
      && s'.metricsLog[|s.metricsLog|].time == s'.time
    requires s'.time % 10 != 0 ==> s'.metricsLog == s.metricsLog
    ensures LogCadence(s')
  {
    if s'.time % 10 == 0 {
      forall m | 0 <= m < |s'.metricsLog|
        ensures s'.metricsLog[m].time == 10 * (m + 1)
      {
        if m < |s.metricsLog| {
          assert s'.metricsLog[m] == s'.metricsLog[..|s.metricsLog|][m];
        }
      }
    }
  }

  /** `update()`. A paused simulation is returned as it is and no draw is read. */
  function Update(s: Sim, rng: Rng, k: nat): (r: Stepped)
    requires WellFormed(s)
    ensures s.paused ==> r == Stepped(s, k)
    ensures !s.paused ==> r == Tick(s, rng, k)
    ensures WellFormed(r.sim) && r.sim.network == s.network && |r.sim.agents| == |s.agents|
    ensures r.sim.params == s.params && r.sim.paused == s.paused && r.next >= k
    ensures LogCadence(s) ==> LogCadence(r.sim)
  {
    hide Tick;
    if s.paused then Stepped(s, k) else Tick(s, rng, k)
  }

  /** `n` calls of `update()` in a row. */
  function RunSteps(s: Sim, n: nat, rng: Rng, k: nat): (r: Stepped)
    requires WellFormed(s)
    ensures WellFormed(r.sim) && r.sim.network == s.network
    ensures r.sim.params == s.params && r.sim.paused == s.paused
    decreases n
  {
    if n == 0 then Stepped(s, k)
    else
      var st := Update(s, rng, k);
      RunSteps(st.sim, n - 1, rng, st.next)
  }

  /** One animation frame of `loop`: `simulationSpeed` updates; a count of
      zero or less runs none. */
  function Frame(s: Sim, rng: Rng, k: nat): (r: Stepped)
    requires WellFormed(s)
    ensures s.params.simulationSpeed <= 0 ==> r == Stepped(s, k)
    ensures s.params.simulationSpeed > 0 && !s.paused ==>
      r.sim.time == s.time + s.params.simulationSpeed
  {
    var n := if s.params.simulationSpeed > 0 then s.params.simulationSpeed else 0;
    RunAdvancesTime(s, n, rng, k);
    RunSteps(s, n, rng, k)
  }

  /** A paused simulation stays exactly as it is, however many steps run. */
  lemma {:induction false} PausedRunIsIdle(s: Sim, n: nat, rng: Rng, k: nat)
    requires WellFormed(s)
    requires s.paused
    ensures RunSteps(s, n, rng, k) == Stepped(s, k)
    decreases n
  {
    hide Update, Tick, PolarizationOf, NextJudiciary, LegislativeGain, NearestParty;
    if n > 0 {
      PausedRunIsIdle(s, n - 1, rng, k);
    }
  }

  /** Every unpaused step advances the clock by exactly one. */
  lemma {:induction false} RunAdvancesTime(s: Sim, n: nat, rng: Rng, k: nat)
    requires WellFormed(s)
    ensures !s.paused ==> RunSteps(s, n, rng, k).sim.time == s.time + n
    decreases n
  {
    hide Update, Tick, PolarizationOf, NextJudiciary, LegislativeGain, NearestParty;
    if n > 0 {
      var st := Update(s, rng, k);
      RunAdvancesTime(st.sim, n - 1, rng, st.next);
    }
  }

  /** Judiciary capacity never leaves [0, 100]. */
  lemma {:induction false} RunKeepsJudiciaryInRange(s: Sim, n: nat, rng: Rng, k: nat)
    requires WellFormed(s)
    requires 0.0 <= s.judiciaryCapacity <= 100.0
    ensures 0.0 <= RunSteps(s, n, rng, k).sim.judiciaryCapacity <= 100.0
    decreases n
  {
    hide Update, Tick, PolarizationOf, NextJudiciary, LegislativeGain, NearestParty;
    if n > 0 {
      var st := Update(s, rng, k);
      RunKeepsJudiciaryInRange(st.sim, n - 1, rng, st.next);
    }
  }

  /** Legislative output never decreases, and grows by at most 0.2 a step. */
  lemma {:induction false} RunLegislativeMonotone(s: Sim, n: nat, rng: Rng, k: nat)
    requires WellFormed(s)
    ensures var r := RunSteps(s, n, rng, k).sim;
      s.legislativeOutput <= r.legislativeOutput <= s.legislativeOutput + 0.2 * n as real
    decreases n
  {
    hide Update, Tick, PolarizationOf, NextJudiciary, LegislativeGain, NearestParty;
    if n > 0 {
      var st := Update(s, rng, k);
      RunLegislativeMonotone(st.sim, n - 1, rng, st.next);
    }
  }

  /** The metrics log keeps its one-entry-per-ten-steps shape. */
  lemma {:induction false} RunKeepsLogCadence(s: Sim, n: nat, rng: Rng, k: nat)
    requires WellFormed(s)
    requires LogCadence(s)
    ensures LogCadence(RunSteps(s, n, rng, k).sim)
    decreases n
  {
    hide Update, Tick, PolarizationOf, NextJudiciary, LegislativeGain, NearestParty;
    if n > 0 {
      var st := Update(s, rng, k);
      RunKeepsLogCadence(st.sim, n - 1, rng, st.next);
    }
  }

  /** From a reset (time 0, empty log), n unpaused steps leave n/10 log
      entries stamped 10, 20, ... in order. */
  lemma LogAfterReset(s: Sim, n: nat, rng: Rng, k: nat)
    requires WellFormed(s)
    requires s.time == 0 && s.metricsLog == [] && !s.paused
    ensures var r := RunSteps(s, n, rng, k).sim;
      && |r.metricsLog| == n / 10
      && forall m :: 0 <= m < |r.metricsLog| ==> r.metricsLog[m].time == 10 * (m + 1)
  {
    RunKeepsLogCadence(s, n, rng, k);
    RunAdvancesTime(s, n, rng, k);
  }

  /** After at least one unpaused step every agent is inside the position
      box, whatever its velocity was. */
  lemma {:induction false} RunPlacesAgents(s: Sim, n: nat, rng: Rng, k: nat)
    requires WellFormed(s)
    requires !s.paused && n > 0
    ensures AllInBounds(RunSteps(s, n, rng, k).sim.agents)
    decreases n
  {
    hide Update, Tick, PolarizationOf, NextJudiciary, LegislativeGain, NearestParty;
    var st := Update(s, rng, k);
    if n > 1 {
      RunPlacesAgents(st.sim, n - 1, rng, st.next);
    }
  }
}

=== FILE: controls.dfy ===
/** The buttons that change the simulation outside the step: mass
    radicalization, the strategic coalition and the pause toggle. Each logs
    an event stamped with the current time. */
module Controls {
  import opened Numeric
  import opened Model

  /** One agent pushed 0.3 further from the centre: a positive ideology to
      the right, zero or a negative one to the left. There is no clamp. */
  function Radicalize(a: Agent): (r: Agent)
    ensures r == a.(x := r.x)
    ensures Abs(r.x) == Abs(a.x) + 0.3
    ensures (r.x > 0.0) <==> (a.x > 0.0)
  {
    a.(x := if a.x > 0.0 then a.x + 0.3 else a.x - 0.3)
  }

  /** The mass-radicalization button. */
  function MassRadicalize(s: Sim): (r: Sim)
    ensures r == s.(agents := r.agents, events := r.events)
    ensures |r.agents| == |s.agents|
    ensures forall j :: 0 <= j < |s.agents| ==> r.agents[j] == Radicalize(s.agents[j])
    ensures r.events == s.events + [Event(s.time, MassRadicalization)]
  {
    s.(agents := seq(|s.agents|, j requires 0 <= j < |s.agents| => Radicalize(s.agents[j])),
       events := s.events + [Event(s.time, MassRadicalization)])
  }

  /** Mass radicalization keeps the friend network valid. */
  lemma MassRadicalizeKeepsWellFormed(s: Sim)
    requires WellFormed(s)
    ensures WellFormed(MassRadicalize(s))
  {
  }

  /** The missing clamp: an agent at the edge of the box is pushed outside
      it, and stays there until the next step clamps it. */
  lemma MassRadicalizationLeavesBox()
    ensures !InBounds(Radicalize(Agent(1.0, 0.5, 0.0, 0.0, 0.5, 0.05, None)))
  {
    assert Radicalize(Agent(1.0, 0.5, 0.0, 0.0, 0.5, 0.05, None)).x == 1.3;
  }

  /** The coalition button: with at least two parties, the first moves to
      0.1 left of the second; with fewer, nothing happens and nothing is logged. */
  function FormCoalition(s: Sim): (r: Sim)
    ensures |s.parties| <= 1 ==> r == s
    ensures |s.parties| > 1 ==>
      && r == s.(parties := r.parties, events := r.events)
      && |r.parties| == |s.parties|
      && r.parties[0] == s.parties[0].(currentIdeology := s.parties[1].currentIdeology - 0.1)
      && r.parties[1..] == s.parties[1..]
      && r.events == s.events + [Event(s.time, CoalitionFormed)]
  {
    if |s.parties| > 1 then
      var left := s.parties[0];
      s.(parties := s.parties[0 := left.(currentIdeology := s.parties[1].currentIdeology - 0.1)],
         events := s.events + [Event(s.time, CoalitionFormed)])
    else s
  }

  /** Pressing the coalition button again moves no party: the second party
      has not moved, so the first is already where the button puts it. */
  lemma FormCoalitionIdempotent(s: Sim)
    ensures FormCoalition(FormCoalition(s)).parties == FormCoalition(s).parties
  {
  }

  /** The pause button: flips the flag and logs the new state. */
  function TogglePause(s: Sim): (r: Sim)
    ensures r == s.(paused := r.paused, events := r.events)
    ensures r.paused == !s.paused
    ensures r.events == s.events + [Event(s.time, if r.paused then SimulationPaused else SimulationResumed)]
  {
    var paused := !s.paused;
    s.(paused := paused,
       events := s.events + [Event(s.time, if paused then SimulationPaused else SimulationResumed)])
  }

  /** Pressing pause twice restores the simulation, with a pause and a
      resume entry added to the event log. */
  lemma TogglePauseTwice(s: Sim)
    ensures TogglePause(TogglePause(s)).(events := s.events) == s
    ensures TogglePause(TogglePause(s)).events == s.events +
      [Event(s.time, if s.paused then SimulationResumed else SimulationPaused),
       Event(s.time, if s.paused then SimulationPaused else SimulationResumed)]
  {
  }
}

=== FILE: export.dfy ===
/** The export button: the metrics log as CSV text, a header line followed
    by one line per entry in log order, every line ended by a newline. The
    step counter is written in decimal; the other four numbers go through a
    formatter (two decimals in the page) that is a parameter here. */
module Export {
  import opened Model

  /** How a number is written; `polarization` gets its own formatter because
      the model keeps it as a mean square (or NaN), not as the printed value. */
  type Formatter = real -> string
  type PolarizationFormatter = Polarization -> string

  const Header: string := "Time,Polarization,Judiciary,Legislative,Gini"

  predicate IsDigit(c: char)
  {
    '0' <= c <= '9'
  }

  predicate IsDigits(s: string)
  {
    forall i :: 0 <= i < |s| ==> IsDigit(s[i])
  }

  function DigitChar(d: nat): (c: char)
    requires d < 10
    ensures IsDigit(c) && (c as int) - ('0' as int) == d
  {
    ['0', '1', '2', '3', '4', '5', '6', '7', '8', '9'][d]
  }

  /** `${n}` for a step counter. */
  function NatToString(n: nat): (s: string)
    ensures |s| > 0 && IsDigits(s)
    decreases n
  {
    if n < 10 then [DigitChar(n)] else NatToString(n / 10) + [DigitChar(n % 10)]
  }

  /** Reading a decimal numeral back. */
  function ParseNat(s: string): nat
    requires IsDigits(s)
    decreases |s|
  {
    if |s| == 0 then 0
    else ParseNat(s[..|s| - 1]) * 10 + ((s[|s| - 1] as int) - ('0' as int))
  }

  /** The decimal text of a step counter reads back as that counter. */
  lemma {:induction false} NatToStringRoundTrip(n: nat)
    ensures ParseNat(NatToString(n)) == n
    decreases n
  {
    var s := NatToString(n);
    if n >= 10 {
      NatToStringRoundTrip(n / 10);
      assert s[..|s| - 1] == NatToString(n / 10);
    }
  }

  /** The five fields of a log entry as the export writes them. */
  function Fields(e: LogEntry, fp: PolarizationFormatter, fr: Formatter): (r: seq<string>)
    ensures |r| == 5
  {
    [NatToString(e.time), fp(e.polarization), fr(e.judiciary), fr(e.legislative), fr(e.gini)]
  }

  /** Pieces written one after another with c between neighbours. */
  function JoinWith(pieces: seq<string>, c: char): string
    requires |pieces| > 0
    decreases |pieces|
  {
    if |pieces| == 1 then pieces[0] else pieces[0] + [c] + JoinWith(pieces[1..], c)
  }

  /** One line of the export, without its newline. */
  function Row(e: LogEntry, fp: PolarizationFormatter, fr: Formatter): string
  {
    JoinWith(Fields(e, fp, fr), ',')
  }

  function Rows(log: seq<LogEntry>, fp: PolarizationFormatter, fr: Formatter): (r: seq<string>)
    ensures |r| == |log|
    ensures forall i :: 0 <= i < |log| ==> r[i] == Row(log[i], fp, fr)
  {
    seq(|log|, i requires 0 <= i < |log| => Row(log[i], fp, fr))
  }

  /** Lines each followed by a newline. */
  function Terminated(lines: seq<string>): string
  {
    if |lines| == 0 then "" else lines[0] + "\n" + Terminated(lines[1..])
  }

  lemma {:induction false} TerminatedSnoc(lines: seq<string>, last: string)
    ensures Terminated(lines + [last]) == Terminated(lines) + last + "\n"
    decreases |lines|
  {
    if |lines| == 0 {
      assert [last][1..] == [];
    } else {
      TerminatedSnoc(lines[1..], last);
      assert (lines + [last])[1..] == lines[1..] + [last];
    }
  }

  /** The CSV text as the button builds it: start from the header line and
      append one line per log entry. */
  method ExportCsv(log: seq<LogEntry>, fp: PolarizationFormatter, fr: Formatter) returns (csv: string)
    ensures csv == Terminated([Header] + Rows(log, fp, fr))
  {
    csv := Header + "\n";
    assert Terminated([Header]) == Header + "\n" by {
      assert [Header][1..] == [];
    }
    var i := 0;
    while i < |log|
      invariant 0 <= i <= |log|
      invariant csv == Terminated([Header] + Rows(log[..i], fp, fr))
    {
      var line := Row(log[i], fp, fr);
      TerminatedSnoc([Header] + Rows(log[..i], fp, fr), line);
      assert [Header] + Rows(log[..i + 1], fp, fr) == [Header] + Rows(log[..i], fp, fr) + [line];
      csv := csv + line + "\n";
      i := i + 1;
    }
    assert log[..i] == log;
  }

  /** The export button also logs an event at the current time. */
  function ExportEvent(s: Sim): (r: Sim)
    ensures r == s.(events := r.events)
    ensures r.events == s.events + [Event(s.time, DataExported)]
  {
    s.(events := s.events + [Event(s.time, DataExported)])
  }

  /** The pieces of s between occurrences of c. */
  function Split(s: string, c: char): (r: seq<string>)
    ensures |r| > 0
    decreases |s|
  {
    if |s| == 0 then [""]
    else if s[0] == c then [""] + Split(s[1..], c)
    else
      var rest := Split(s[1..], c);
      [[s[0]] + rest[0]] + rest[1..]
  }

  /** Splitting a line that holds no c, followed by c and more text. */
  lemma {:induction false} SplitAfterLine(line: string, c: char, more: string)
    requires c !in line
    ensures Split(line + [c] + more, c) == [line] + Split(more, c)
    decreases |line|
  {
    var s := line + [c] + more;
    if |line| == 0 {
      assert s == [c] + more;
      assert s[1..] == more;
    } else {
      SplitAfterLine(line[1..], c, more);
      assert s[0] == line[0] && s[0] != c;
      assert s[1..] == line[1..] + [c] + more;
      assert [line[0]] + line[1..] == line;
    }
  }

  /** Newline-terminated lines that hold no newline split back into those
      lines and a final empty piece. */
  lemma {:induction false} SplitTerminated(lines: seq<string>)
    requires forall i :: 0 <= i < |lines| ==> '\n' !in lines[i]
    ensures Split(Terminated(lines), '\n') == lines + [""]
    decreases |lines|
  {
    if |lines| > 0 {
      SplitTerminated(lines[1..]);
      SplitAfterLine(lines[0], '\n', Terminated(lines[1..]));
      assert lines[0] + "\n" + Terminated(lines[1..]) == lines[0] + ['\n'] + Terminated(lines[1..]);
      assert lines == [lines[0]] + lines[1..];
    }
  }

  /** The line structure of the export: when the formatters never write a
      newline, the text is the header, one line per log entry, and nothing
      after the last newline. */
  lemma CsvLines(log: seq<LogEntry>, fp: PolarizationFormatter, fr: Formatter)
    requires forall p :: '\n' !in fp(p)
    requires forall v :: '\n' !in fr(v)
    ensures var lines := Split(Terminated([Header] + Rows(log, fp, fr)), '\n');
      && |lines| == |log| + 2
      && lines[0] == Header
      && (forall i :: 0 <= i < |log| ==> lines[i + 1] == Row(log[i], fp, fr))
      && lines[|log| + 1] == ""
  {
    hide Row, Split, Terminated;
    var all := [Header] + Rows(log, fp, fr);
    forall i | 0 <= i < |all|
      ensures '\n' !in all[i]
    {
      if i > 0 {
        RowHasNoNewline(log[i - 1], fp, fr);
      }
    }
    SplitTerminated(all);
  }

  lemma RowHasNoNewline(e: LogEntry, fp: PolarizationFormatter, fr: Formatter)
    requires forall p :: '\n' !in fp(p)
    requires forall v :: '\n' !in fr(v)
    ensures '\n' !in Row(e, fp, fr)
  {
    var fields := Fields(e, fp, fr);
    DigitsAvoid(fields[0], '\n');
    JoinAvoids(fields, ',', '\n');
  }

  /** A numeral holds neither separator. */
  lemma DigitsAvoid(s: string, d: char)
    requires IsDigits(s) && !IsDigit(d)
    ensures d !in s
  {
    assert forall i :: 0 <= i < |s| ==> s[i] != d;
  }

  /** Joining pieces that avoid d with a separator other than d avoids d. */
  lemma {:induction false} JoinAvoids(pieces: seq<string>, c: char, d: char)
    requires |pieces| > 0 && c != d
    requires forall i :: 0 <= i < |pieces| ==> d !in pieces[i]
    ensures d !in JoinWith(pieces, c)
    decreases |pieces|
  {
    if |pieces| > 1 {
      JoinAvoids(pieces[1..], c, d);
    }
  }

  /** Pieces that hold no c, joined with c, split back into those pieces. */
  lemma {:induction false} SplitJoin(pieces: seq<string>, c: char)
    requires |pieces| > 0
    requires forall i :: 0 <= i < |pieces| ==> c !in pieces[i]
    ensures Split(JoinWith(pieces, c), c) == pieces
    decreases |pieces|
  {
    if |pieces| == 1 {
      SplitPlain(pieces[0], c);
    } else {
      SplitJoin(pieces[1..], c);
      SplitAfterLine(pieces[0], c, JoinWith(pieces[1..], c));
      assert pieces == [pieces[0]] + pieces[1..];
    }
  }

  /** Each row splits at its commas into the five fields, the first of which
      reads back as the entry's step. */
  lemma RowFields(e: LogEntry, fp: PolarizationFormatter, fr: Formatter)
    requires forall p :: ',' !in fp(p)
    requires forall v :: ',' !in fr(v)
    ensures Split(Row(e, fp, fr), ',') ==
      [NatToString(e.time), fp(e.polarization), fr(e.judiciary), fr(e.legislative), fr(e.gini)]
    ensures ParseNat(Split(Row(e, fp, fr), ',')[0]) == e.time
  {
    DigitsAvoid(NatToString(e.time), ',');
    SplitJoin(Fields(e, fp, fr), ',');
    NatToStringRoundTrip(e.time);
  }

  /** Text without c is a single piece. */
  lemma {:induction false} SplitPlain(s: string, c: char)
    requires c !in s
    ensures Split(s, c) == [s]
    decreases |s|
  {
    if |s| > 0 {
      SplitPlain(s[1..], c);
      assert [s[0]] + s[1..] == s;
    }
  }
}

=== FILE: force_model.dfy ===
/** The per-agent pass of a step. Agents are visited in population order and
    updated in place: forces read the live positions of the other agents, so
    an agent visited later sees the new positions of those visited earlier,
    while the spatial grid still holds the positions from before the pass. */
module ForceModel {
  import opened Numeric
  import opened Model
  import opened SpatialIndex

  function Dist(x: real, p: Party): real
  {
    Abs(x - p.currentIdeology)
  }

  /** Party k is at minimal distance from x, and every party listed before it
      is strictly farther away. */
  predicate IsFirstNearest(x: real, ps: seq<Party>, k: nat)
  {
    && k < |ps|
    && (forall j :: 0 <= j < |ps| ==> Dist(x, ps[k]) <= Dist(x, ps[j]))
    && (forall j :: 0 <= j < k ==> Dist(x, ps[k]) < Dist(x, ps[j]))
  }

  lemma FirstNearestIsUnique(x: real, ps: seq<Party>, k1: nat, k2: nat)
    requires IsFirstNearest(x, ps, k1) && IsFirstNearest(x, ps, k2)
    ensures k1 == k2
  {
    assert Dist(x, ps[k1]) <= Dist(x, ps[k2]) && Dist(x, ps[k2]) <= Dist(x, ps[k1]);
  }

  /** The scan over parties with `d < minDist`; `best == None` stands for the
      initial `minDist = Infinity`. */
  function NearestFrom(x: real, ps: seq<Party>, i: nat, best: Option<nat>, minDist: real): (r: Option<nat>)
    requires i <= |ps|
    requires best.None? <==> i == 0
    requires best.Some? ==> && best.value < i
                            && minDist == Dist(x, ps[best.value])
                            && (forall j :: 0 <= j < i ==> minDist <= Dist(x, ps[j]))
                            && (forall j :: 0 <= j < best.value ==> minDist < Dist(x, ps[j]))
    ensures r.Some? <==> |ps| > 0
    ensures r.Some? ==> IsFirstNearest(x, ps, r.value)
    decreases |ps| - i
  {
    if i == |ps| then best
    else
      var d := Dist(x, ps[i]);
      if best.None? || d < minDist then NearestFrom(x, ps, i + 1, Some(i), d)
      else NearestFrom(x, ps, i + 1, best, minDist)
  }

  /** The party an agent at ideology x joins: none when there are no parties. */
  function NearestParty(x: real, ps: seq<Party>): (r: Option<nat>)
    ensures r.Some? <==> |ps| > 0
    ensures r.Some? ==> IsFirstNearest(x, ps, r.value)
  {
    NearestFrom(x, ps, 0, None, 0.0)
  }

  /** Force 1: record the affiliation and pull toward the chosen party. */
  function Attract(a: Agent, best: Option<nat>, ps: seq<Party>, scale: real): (r: Agent)
    requires best.Some? ==> best.value < |ps|
    ensures r.affiliation == best
    ensures SameTraits(a, r) && r.x == a.x && r.y == a.y
    ensures best.None? ==> r.vx == a.vx && r.vy == a.vy
    ensures best.Some? && 1.0 + a.radicalization * scale > 0.0 ==>
      (a.x < ps[best.value].currentIdeology ==> r.vx > a.vx) &&
      (a.x > ps[best.value].currentIdeology ==> r.vx < a.vx) &&
      (a.x == ps[best.value].currentIdeology ==> r.vx == a.vx)
    ensures best.Some? ==>
      (a.y < ps[best.value].yPos ==> r.vy > a.vy) &&
      (a.y > ps[best.value].yPos ==> r.vy < a.vy)
  {
    match best
    case None => a.(affiliation := None)
    case Some(k) =>
      var p := ps[k];
      var factor := 0.001 * (1.0 + a.radicalization * scale);
      SignOfProduct(p.currentIdeology - a.x, factor);
      a.(affiliation := best,
         vx := a.vx + (p.currentIdeology - a.x) * factor,
         vy := a.vy + (p.yPos - a.y) * 0.001)
  }

  lemma SignOfProduct(d: real, f: real)
    ensures f > 0.0 && d > 0.0 ==> d * f > 0.0
    ensures f > 0.0 && d < 0.0 ==> d * f < 0.0
    ensures f >= 0.0 && d >= 0.0 ==> d * f >= 0.0
    ensures f >= 0.0 && d <= 0.0 ==> d * f <= 0.0
    ensures d == 0.0 ==> d * f == 0.0
  {
  }

  /** Every index a bucket of the grid lists names an agent. */
  predicate MembersValid(members: seq<nat>, n: nat)
  {
    forall m :: m in members ==> m < n
  }

  /** Force 2 within one bucket: a push of `strength` away from every other
      listed agent more than 1.0 away in ideology. */
  function BucketRepulsion(agents: seq<Agent>, i: nat, members: seq<nat>, strength: real): real
    requires i < |agents|
    requires MembersValid(members, |agents|)
  {
    if |members| == 0 then 0.0
    else
      var j := members[0];
      assert j in members;
      assert MembersValid(members[1..], |agents|) by {
        assert forall m :: m in members[1..] ==> m in members;
      }
      var push :=
        if j != i && Abs(agents[i].x - agents[j].x) > 1.0 then
          (if agents[i].x > agents[j].x then 1.0 else -1.0) * strength
        else 0.0;
      push + BucketRepulsion(agents, i, members[1..], strength)
  }

  function CellsRepulsion(agents: seq<Agent>, i: nat, cells: seq<Cell>, bins: Bins, strength: real): real
    requires i < |agents|
    requires BinsValid(bins, |agents|)
  {
    if |cells| == 0 then 0.0
    else
      var c := cells[0];
      var here := if c in bins then BucketRepulsion(agents, i, bins[c], strength) else 0.0;
      here + CellsRepulsion(agents, i, cells[1..], bins, strength)
  }

  /** Force 2: the affective push summed over the 3x3 block of buckets
      around agent i's own cell. Agents far on the left push i right, agents
      far on the right push it left; with no far agent in the block there is
      no push at all. */
  function Repulsion(agents: seq<Agent>, i: nat, bins: Bins, strength: real): (r: real)
    requires i < |agents|
    requires BinsValid(bins, |agents|)
    ensures var block := Neighbourhood(CellOf(agents[i]));
      && (!AnyFarLeft(agents, i, block, bins) && !AnyFarRight(agents, i, block, bins) ==> r == 0.0)
      && (strength >= 0.0 && !AnyFarRight(agents, i, block, bins) ==> r >= 0.0)
      && (strength >= 0.0 && !AnyFarLeft(agents, i, block, bins) ==> r <= 0.0)
      && (strength > 0.0 && AnyFarLeft(agents, i, block, bins) && !AnyFarRight(agents, i, block, bins) ==> r > 0.0)
      && (strength > 0.0 && AnyFarRight(agents, i, block, bins) && !AnyFarLeft(agents, i, block, bins) ==> r < 0.0)
  {
    var block := Neighbourhood(CellOf(agents[i]));
    CellsRepulsionSign(agents, i, block, bins, strength);
    CellsRepulsion(agents, i, block, bins, strength)
  }

  /** Agent m is another agent more than 1.0 to the left of agent i. */
  predicate FarLeft(agents: seq<Agent>, i: nat, m: nat)
  {
    i < |agents| && m < |agents| && m != i && agents[m].x < agents[i].x - 1.0
  }

  /** Agent m is another agent more than 1.0 to the right of agent i. */
  predicate FarRight(agents: seq<Agent>, i: nat, m: nat)
  {
    i < |agents| && m < |agents| && m != i && agents[m].x > agents[i].x + 1.0
  }

  predicate BucketFarLeft(agents: seq<Agent>, i: nat, members: seq<nat>)
  {
    exists m :: m in members && FarLeft(agents, i, m)
  }

  predicate BucketFarRight(agents: seq<Agent>, i: nat, members: seq<nat>)
  {
    exists m :: m in members && FarRight(agents, i, m)
  }

  /** Some bucket of `cells` lists an agent far on the left of agent i. */
  predicate AnyFarLeft(agents: seq<Agent>, i: nat, cells: seq<Cell>, bins: Bins)
  {
    exists c :: c in cells && c in bins && BucketFarLeft(agents, i, bins[c])
  }

  /** Some bucket of `cells` lists an agent far on the right of agent i. */
  predicate AnyFarRight(agents: seq<Agent>, i: nat, cells: seq<Cell>, bins: Bins)
  {
    exists c :: c in cells && c in bins && BucketFarRight(agents, i, bins[c])
  }

  /** The sign of one bucket's push follows the side its far agents are on. */
  lemma {:induction false} BucketRepulsionSign(agents: seq<Agent>, i: nat, members: seq<nat>, strength: real)
    requires i < |agents|
    requires MembersValid(members, |agents|)
    ensures var r := BucketRepulsion(agents, i, members, strength);
      && (!BucketFarLeft(agents, i, members) && !BucketFarRight(agents, i, members) ==> r == 0.0)
      && (strength >= 0.0 && !BucketFarRight(agents, i, members) ==> r >= 0.0)
      && (strength >= 0.0 && !BucketFarLeft(agents, i, members) ==> r <= 0.0)
      && (strength > 0.0 && BucketFarLeft(agents, i, members) && !BucketFarRight(agents, i, members) ==> r > 0.0)
      && (strength > 0.0 && BucketFarRight(agents, i, members) && !BucketFarLeft(agents, i, members) ==> r < 0.0)
  {
    if |members| > 0 {
      var j := members[0];
      var rest := members[1..];
      assert j in members;
      assert forall m :: m in rest ==> m in members;
      BucketRepulsionSign(agents, i, rest, strength);
      assert FarLeft(agents, i, j) ==> BucketFarLeft(agents, i, members);
      assert FarRight(agents, i, j) ==> BucketFarRight(agents, i, members);
      assert BucketFarLeft(agents, i, rest) ==> BucketFarLeft(agents, i, members);
      assert BucketFarRight(agents, i, rest) ==> BucketFarRight(agents, i, members);
      if BucketFarLeft(agents, i, members) && !FarLeft(agents, i, j) {
        var m :| m in members && FarLeft(agents, i, m);
        assert m in rest;
      }
      if BucketFarRight(agents, i, members) && !FarRight(agents, i, j) {
        var m :| m in members && FarRight(agents, i, m);
        assert m in rest;
      }
    }
  }

  /** The sign of the push summed over a list of cells. */
  lemma {:induction false} CellsRepulsionSign(agents: seq<Agent>, i: nat, cells: seq<Cell>, bins: Bins, strength: real)
    requires i < |agents|
    requires BinsValid(bins, |agents|)
    ensures var r := CellsRepulsion(agents, i, cells, bins, strength);
      && (!AnyFarLeft(agents, i, cells, bins) && !AnyFarRight(agents, i, cells, bins) ==> r == 0.0)
      && (strength >= 0.0 && !AnyFarRight(agents, i, cells, bins) ==> r >= 0.0)
      && (strength >= 0.0 && !AnyFarLeft(agents, i, cells, bins) ==> r <= 0.0)
      && (strength > 0.0 && AnyFarLeft(agents, i, cells, bins) && !AnyFarRight(agents, i, cells, bins) ==> r > 0.0)
      && (strength > 0.0 && AnyFarRight(agents, i, cells, bins) && !AnyFarLeft(agents, i, cells, bins) ==> r < 0.0)
  {
    if |cells| > 0 {
      var c := cells[0];
      var rest := cells[1..];
      assert c in cells;
      assert forall d :: d in rest ==> d in cells;
      CellsRepulsionSign(agents, i, rest, bins, strength);
      if c in bins {
        assert MembersValid(bins[c], |agents|);
        BucketRepulsionSign(agents, i, bins[c], strength);
        assert BucketFarLeft(agents, i, bins[c]) ==> AnyFarLeft(agents, i, cells, bins);
        assert BucketFarRight(agents, i, bins[c]) ==> AnyFarRight(agents, i, cells, bins);
      }
      assert AnyFarLeft(agents, i, rest, bins) ==> AnyFarLeft(agents, i, cells, bins);
      assert AnyFarRight(agents, i, rest, bins) ==> AnyFarRight(agents, i, cells, bins);
      if AnyFarLeft(agents, i, cells, bins) && !(c in bins && BucketFarLeft(agents, i, bins[c])) {
        var d :| d in cells && d in bins && BucketFarLeft(agents, i, bins[d]);
        assert d in rest;
      }
      if AnyFarRight(agents, i, cells, bins) && !(c in bins && BucketFarRight(agents, i, bins[c])) {
        var d :| d in cells && d in bins && BucketFarRight(agents, i, bins[d]);
        assert d in rest;
      }
    }
  }

  /** Against the positions the grid was built from, affective repulsion
      never fires: the 3x3 neighbours are all within 0.48 in ideology. */
  lemma RepulsionVanishesOnBuildPositions(agents: seq<Agent>, i: nat, strength: real)
    requires i < |agents|
    ensures Repulsion(agents, i, BuildBins(agents), strength) == 0.0
  {
    var bins := BuildBins(agents);
    var cells := Neighbourhood(CellOf(agents[i]));
    CellsRepulsionVanishes(agents, i, cells, bins, strength);
  }

  lemma {:induction false} CellsRepulsionVanishes(agents: seq<Agent>, i: nat, cells: seq<Cell>, bins: Bins, strength: real)
    requires i < |agents|
    requires bins == BuildBins(agents)
    requires forall d :: d in cells ==> d in Neighbourhood(CellOf(agents[i]))
    ensures CellsRepulsion(agents, i, cells, bins, strength) == 0.0
  {
    if |cells| > 0 {
      var c := cells[0];
      if c in bins {
        BucketRepulsionVanishes(agents, i, c, bins[c], strength);
      }
      CellsRepulsionVanishes(agents, i, cells[1..], bins, strength);
    }
  }

  lemma {:induction false} BucketRepulsionVanishes(agents: seq<Agent>, i: nat, c: Cell, members: seq<nat>, strength: real)
    requires i < |agents|
    requires c in Neighbourhood(CellOf(agents[i]))
    requires c in BuildBins(agents)
    requires forall m :: m in members ==> m in BuildBins(agents)[c]
    ensures MembersValid(members, |agents|)
    ensures BucketRepulsion(agents, i, members, strength) == 0.0
  {
    if |members| > 0 {
      NeighboursAreClose(agents, i, c, members[0]);
      BucketRepulsionVanishes(agents, i, c, members[1..], strength);
    }
  }

  /** Force 3: the pull toward each friend's live ideology. */
  function FriendPull(agents: seq<Agent>, i: nat, friends: seq<nat>, scale: real): (r: real)
    requires i < |agents|
    requires forall f :: f in friends ==> f < |agents|
    ensures agents[i].radicalization * scale >= 0.0 ==>
      ((forall f :: f in friends ==> agents[f].x >= agents[i].x) ==> r >= 0.0) &&
      ((forall f :: f in friends ==> agents[f].x <= agents[i].x) ==> r <= 0.0)
  {
    if |friends| == 0 then 0.0
    else
      var f := friends[0];
      assert f in friends;
      assert forall g :: g in friends[1..] ==> g in friends;
      // The source multiplies left to right; over the reals the grouping is immaterial.
      var w := 0.0005 * (agents[i].radicalization * scale);
      var d := agents[f].x - agents[i].x;
      SignOfProduct(d, w);
      d * w + FriendPull(agents, i, friends[1..], scale)
  }

  /** The velocity change a media event with the given bias gives agent a:
      none without an event, and otherwise in the direction of the bias for
      an agent whose scaled radicalization is positive. */
  function MediaShift(media: Option<real>, a: Agent, scale: real): (d: real)
    ensures media.None? ==> d == 0.0
    ensures media.Some? && a.radicalization * scale > 0.0 ==>
      (d > 0.0 <==> media.value > 0.0) && (d < 0.0 <==> media.value < 0.0)
  {
    match media
    case None => 0.0
    case Some(bias) =>
      ShiftFollowsBias(bias, a.radicalization, scale);
      bias * a.radicalization * 0.01 * scale
  }

  lemma ShiftFollowsBias(bias: real, rad: real, scale: real)
    ensures rad * scale > 0.0 ==>
      (bias * rad * 0.01 * scale > 0.0 <==> bias > 0.0) && (bias * rad * 0.01 * scale < 0.0 <==> bias < 0.0)
  {
    assert bias * rad * 0.01 * scale == (0.01 * bias) * (rad * scale);
    SignOfProduct(0.01 * bias, rad * scale);
  }

  /** Agent a after a media event's shift of its x-velocity. */
  function MediaNudged(a: Agent, media: Option<real>, scale: real): Agent
  {
    a.(vx := a.vx + MediaShift(media, a, scale))
  }

  /** Force 4 when it fires: every agent, visited or not, has its x-velocity
      moved in the direction of the bias, the direction the event's
      Right/Left label names; nothing else changes. */
  function Nudge(agents: seq<Agent>, media: Option<real>, scale: real): (r: seq<Agent>)
    ensures |r| == |agents|
    ensures forall j :: 0 <= j < |agents| ==> OnlyVxDiffers(agents[j], r[j])
    ensures media.None? ==> r == agents
    ensures forall j :: 0 <= j < |agents| && media.Some? && agents[j].radicalization * scale > 0.0 ==>
      (r[j].vx > agents[j].vx <==> media.value > 0.0) && (r[j].vx < agents[j].vx <==> media.value < 0.0)
  {
    seq(|agents|, j requires 0 <= j < |agents| => MediaNudged(agents[j], media, scale))
  }

  /** Move by the velocity, apply friction 0.95, then the bounds checks. */
  function Integrate(a: Agent): (r: Agent)
    ensures InBounds(r)
    ensures SameTraits(a, r) && r.affiliation == a.affiliation
    ensures r.vx == 0.95 * a.vx && r.vy == 0.95 * a.vy
    ensures -1.1 <= a.x + a.vx <= 1.1 ==> r.x == a.x + a.vx
    ensures a.x + a.vx < -1.1 ==> r.x == -1.1
    ensures a.x + a.vx > 1.1 ==> r.x == 1.1
    ensures 0.0 <= a.y + a.vy <= 1.0 ==> r.y == a.y + a.vy
    ensures a.y + a.vy < 0.0 ==> r.y == 0.0
    ensures a.y + a.vy > 1.0 ==> r.y == 1.0
  {
    var moved := a.(x := a.x + a.vx, y := a.y + a.vy);
    var slowed := moved.(vx := moved.vx * 0.95, vy := moved.vy * 0.95);
    slowed.(x := Clamp(slowed.x, -1.1, 1.1), y := Clamp(slowed.y, 0.0, 1.0))
  }

  /** The outcome of visiting one agent. */
  datatype AgentStep = AgentStep(agents: seq<Agent>, best: Option<nat>, media: Option<real>, next: nat)

  /** Forces 1 to 3 on agent i: party attraction, affective repulsion and
      the pull of its friends, each added to the velocity in that order. */
  function Steer(agents: seq<Agent>, network: seq<seq<nat>>, i: nat, ps: seq<Party>, bins: Bins, p: Params): (r: Agent)
    requires i < |agents|
    requires NetworkValid(network, |agents|)
    requires BinsValid(bins, |agents|)
    ensures SameTraits(agents[i], r)
    ensures r.x == agents[i].x && r.y == agents[i].y
    ensures r.affiliation == NearestParty(agents[i].x, ps)
  {
    var a := agents[i];
    var scale := p.radicalizationScale;
    var a1 := Attract(a, NearestParty(a.x, ps), ps, scale);
    var a2 := a1.(vx := a1.vx + Repulsion(agents, i, bins, p.affectivePolarization * 0.0005));
    a2.(vx := a2.vx + FriendPull(agents, i, network[i], scale))
  }

  /** `to` stands where `from` ends up after moving by the velocity `to`
      had before friction (its own velocity over 0.95), clamped to the box. */
  predicate Moved(from: Agent, to: Agent)
  {
    && to.x == Clamp(from.x + to.vx / 0.95, -1.1, 1.1)
    && to.y == Clamp(from.y + to.vy / 0.95, 0.0, 1.0)
  }

  /** Steering leaves the position alone, so the move can be read from the
      agent before steering. */
  lemma MovedFromSamePlace(a: Agent, b: Agent, to: Agent)
    requires Moved(a, to) && a.x == b.x && a.y == b.y
    ensures Moved(b, to)
  {
  }

  /** Force 5 and the move: noise from draws u and v, then integration. */
  function Settle(b: Agent, noise: real, u: real, v: real): (r: Agent)
    ensures InBounds(r)
    ensures SameTraits(b, r) && r.affiliation == b.affiliation
    ensures Noised(b, r, noise, u, v)
    ensures noise > 0.0 ==> (r.vx > 0.95 * b.vx <==> u > 0.5) && (r.vx < 0.95 * b.vx <==> u < 0.5)
    ensures noise > 0.0 ==> (r.vy > 0.95 * b.vy <==> v > 0.5) && (r.vy < 0.95 * b.vy <==> v < 0.5)
    ensures Unit(u) && noise >= 0.0 ==> Abs(r.vx - 0.95 * b.vx) <= 0.95 * noise / 2.0
    ensures Unit(v) && noise >= 0.0 ==> Abs(r.vy - 0.95 * b.vy) <= 0.95 * noise / 2.0
    ensures Moved(b, r)
    ensures noise == 0.0 ==> r == Integrate(b)
  {
    var a := b.(vx := b.vx + (u - 0.5) * noise, vy := b.vy + (v - 0.5) * noise);
    var r := Integrate(a);
    NoiseStep(b.vx, noise, u, r.vx);
    NoiseStep(b.vy, noise, v, r.vy);
    assert noise == 0.0 ==> a == b;
    r
  }

  /** `after` holds the velocity of `before` plus the noise `(u - 0.5) * noise`
      and `(v - 0.5) * noise`, after friction: its velocity over 0.95. */
  predicate Noised(before: Agent, after: Agent, noise: real, u: real, v: real)
  {
    && after.vx / 0.95 - before.vx == (u - 0.5) * noise
    && after.vy / 0.95 - before.vy == (v - 0.5) * noise
  }

  /** One velocity component w taking noise from draw u and then friction,
      ending at w'. */
  lemma NoiseStep(w: real, noise: real, u: real, w': real)
    requires w' == 0.95 * (w + (u - 0.5) * noise)
    ensures w' / 0.95 == w + (u - 0.5) * noise
    ensures w' / 0.95 - w == (u - 0.5) * noise
    ensures noise > 0.0 ==> (w' > 0.95 * w <==> u > 0.5) && (w' < 0.95 * w <==> u < 0.5)
    ensures Unit(u) && noise >= 0.0 ==> Abs(w' - 0.95 * w) <= 0.95 * noise / 2.0
  {
    var d := (u - 0.5) * noise;
    assert w' - 0.95 * w == 0.95 * d;
    SignOfProduct(u - 0.5, noise);
    if Unit(u) && noise >= 0.0 {
      assert -0.5 * noise <= d <= 0.5 * noise by {
        assert (u - 0.5 + 0.5) * noise >= 0.0;
        assert (0.5 - (u - 0.5)) * noise >= 0.0;
      }
    }
  }

  /** The media roll of agent i's visit: on `Math.random() < mediaFrequency`
      a second draw gives the bias `(u - 0.5) * 0.5`. */
  function MediaDraw(rng: Rng, k: nat, frequency: real): (r: Option<real>)
    ensures r.Some? <==> rng(k) < frequency
    ensures r.Some? && Unit(rng(k + 1)) ==> -0.25 <= r.value < 0.25
  {
    if rng(k) < frequency then Some((rng(k + 1) - 0.5) * 0.5) else None
  }

  /** Nudge everyone by the media event (if any), then let the steered
      agent i take its noise draws u and v and move. */
  function Visit(agents: seq<Agent>, i: nat, steered: Agent, media: Option<real>, p: Params, u: real, v: real): (r: seq<Agent>)
    requires i < |agents|
    ensures |r| == |agents|
    ensures InBounds(r[i])
    ensures SameTraits(steered, r[i]) && r[i].affiliation == steered.affiliation
    ensures forall j :: 0 <= j < |agents| && j != i ==>
      OnlyVxDiffers(agents[j], r[j]) &&
      r[j].vx == agents[j].vx + MediaShift(media, agents[j], p.radicalizationScale)
    ensures Noised(MediaNudged(steered, media, p.radicalizationScale), r[i], p.noise, u, v)
    ensures Moved(steered, r[i])
  {
    var nudged := Nudge(agents[i := steered], media, p.radicalizationScale);
    nudged[i := Settle(nudged[i], p.noise, u, v)]
  }

  /** Visit agent i: draws the media roll, the media bias when the roll is
      under `mediaFrequency`, then two noise draws. */
  function ProcessAgent(
    agents: seq<Agent>, network: seq<seq<nat>>, i: nat, ps: seq<Party>, bins: Bins, p: Params,
    rng: Rng, k: nat): (r: AgentStep)
    requires i < |agents|
    requires NetworkValid(network, |agents|)
    requires BinsValid(bins, |agents|)
    ensures |r.agents| == |agents|
    ensures r.best == NearestParty(agents[i].x, ps)
    ensures r.agents[i].affiliation == r.best
    ensures SameTraits(agents[i], r.agents[i]) && InBounds(r.agents[i])
    ensures r.media.Some? <==> rng(k) < p.mediaFrequency
    ensures r.media == MediaDraw(rng, k, p.mediaFrequency)
    ensures r.next == if r.media.Some? then k + 4 else k + 3
    ensures Moved(agents[i], r.agents[i])
    ensures forall j :: 0 <= j < |agents| && j != i ==>
      OnlyVxDiffers(agents[j], r.agents[j]) &&
      r.agents[j].vx == agents[j].vx + MediaShift(r.media, agents[j], p.radicalizationScale)
  {
    hide *;
    var steered := Steer(agents, network, i, ps, bins, p);
    var media := MediaDraw(rng, k, p.mediaFrequency);
    var k1 := if media.Some? then k + 2 else k + 1;
    var result := Visit(agents, i, steered, media, p, rng(k1), rng(k1 + 1));
    SameTraitsCompose(agents[i], steered, result[i]);
    MovedFromSamePlace(steered, agents[i], result[i]);
    var r := AgentStep(result, NearestParty(agents[i].x, ps), media, k1 + 2);
    assert r.agents == result && r.media == media;
    r
  }

  /** The velocity agent i leaves its visit with: the steered velocity, its
      own media shift when an event fired, and the noise of the visit's last
      two draws, all before friction. */
  lemma VisitedAgentVelocity(
    agents: seq<Agent>, network: seq<seq<nat>>, i: nat, ps: seq<Party>, bins: Bins, p: Params,
    rng: Rng, k: nat)
    requires i < |agents|
    requires NetworkValid(network, |agents|)
    requires BinsValid(bins, |agents|)
    ensures var r := ProcessAgent(agents, network, i, ps, bins, p, rng, k);
      Noised(MediaNudged(Steer(agents, network, i, ps, bins, p), r.media, p.radicalizationScale),
             r.agents[i], p.noise, rng(r.next - 2), rng(r.next - 1))
  {
    hide Steer, MediaDraw, Visit, NearestParty, Noised, MediaNudged, MediaShift, Settle, Nudge,
      Integrate, Repulsion, FriendPull, Attract, Clamp, Moved;
  }

  /** The media event entry, stamped at time t. */
  function MediaEvents(media: Option<real>, t: nat): (r: seq<Event>)
    ensures |r| <= 1 && (r == [] <==> media.None?)
    ensures forall e :: e in r ==> e.time == t && e.kind.MediaNudge?
  {
    match media
    case None => []
    case Some(bias) => [Event(t, MediaNudge(bias > 0.0))]
  }

  /** `partyStrengths[indexOf(bestParty)]++` when there is a best party. */
  function Tally(strengths: seq<nat>, best: Option<nat>): (r: seq<nat>)
    requires best.Some? ==> best.value < |strengths|
    ensures |r| == |strengths|
    ensures best.Some? ==> r[best.value] == strengths[best.value] + 1
    ensures forall q :: 0 <= q < |r| && best != Some(q) ==> r[q] == strengths[q]
    ensures best.Some? ==> SumNat(r) == SumNat(strengths) + 1
    ensures best.None? ==> r == strengths
  {
    match best
    case None => strengths
    case Some(q) =>
      SumNatIncrement(strengths, q);
      strengths[q := strengths[q] + 1]
  }

  datatype PassResult = PassResult(
    agents: seq<Agent>,
    strengths: seq<nat>,
    total: real,
    next: nat,
    events: seq<Event>)

  /** Visit agents i, i+1, ... in order, counting adherents per party and
      summing the final ideologies; media events are logged at time t. */
  function AgentPass(
    agents: seq<Agent>, network: seq<seq<nat>>, ps: seq<Party>, bins: Bins, p: Params, rng: Rng, k: nat, t: nat,
    i: nat, strengths: seq<nat>, total: real): (r: PassResult)
    requires i <= |agents|
    requires NetworkValid(network, |agents|)
    requires BinsValid(bins, |agents|)
    requires |strengths| == |ps|
    ensures |r.agents| == |agents|
    ensures |r.strengths| == |ps|
    ensures r.next >= k
    ensures forall e :: e in r.events ==> e.time == t && e.kind.MediaNudge?
    decreases |agents| - i
  {
    if i == |agents| then PassResult(agents, strengths, total, k, [])
    else
      var st := ProcessAgent(agents, network, i, ps, bins, p, rng, k);
      var rest := AgentPass(st.agents, network, ps, bins, p, rng, st.next, t, i + 1, Tally(strengths, st.best), total + st.agents[i].x);
      PassResult(rest.agents, rest.strengths, rest.total, rest.next, MediaEvents(st.media, t) + rest.events)
  }

  /** Agents before i are left alone by the rest of the pass, except for
      media nudges to their x-velocity. */
  lemma {:induction false} PassKeepsVisited(
    agents: seq<Agent>, network: seq<seq<nat>>, ps: seq<Party>, bins: Bins, p: Params, rng: Rng, k: nat, t: nat,
    i: nat, strengths: seq<nat>, total: real)
    requires i <= |agents|
    requires NetworkValid(network, |agents|)
    requires BinsValid(bins, |agents|)
    requires |strengths| == |ps|
    ensures var r := AgentPass(agents, network, ps, bins, p, rng, k, t, i, strengths, total);
      forall j :: 0 <= j < i ==> OnlyVxDiffers(agents[j], r.agents[j])
    decreases |agents| - i
  {
    hide *;
    if i < |agents| {
      var r := AgentPass(agents, network, ps, bins, p, rng, k, t, i, strengths, total);
      var st := ProcessAgent(agents, network, i, ps, bins, p, rng, k);
      FirstNearestInRange(agents[i].x, ps, st.best);
      var strengths' := Tally(strengths, st.best);
      var total' := total + st.agents[i].x;
      PassKeepsVisited(st.agents, network, ps, bins, p, rng, st.next, t, i + 1, strengths', total');
      var rest := AgentPass(st.agents, network, ps, bins, p, rng, st.next, t, i + 1, strengths', total');
      PassUnfold(agents, network, ps, bins, p, rng, k, t, i, strengths, total);
      FrameCompose(agents, st.agents, rest.agents, i);
    } else {
      PassEnd(agents, network, ps, bins, p, rng, k, t, i, strengths, total);
    }
  }

  /** Two stretches that each change only x-velocities compose. */
  lemma FrameCompose(a: seq<Agent>, b: seq<Agent>, c: seq<Agent>, i: nat)
    requires i < |a| == |b| == |c|
    requires forall j :: 0 <= j < |a| && j != i ==> OnlyVxDiffers(a[j], b[j])
    requires forall j :: 0 <= j < i + 1 ==> OnlyVxDiffers(b[j], c[j])
    ensures forall j :: 0 <= j < i ==> OnlyVxDiffers(a[j], c[j])
  {
  }

  /** After the pass every agent from i on is inside the position box,
      keeps its traits, and is affiliated with the first nearest party of
      its position before the pass. */
  lemma {:induction false} PassPlacesAgents(
    agents: seq<Agent>, network: seq<seq<nat>>, ps: seq<Party>, bins: Bins, p: Params, rng: Rng, k: nat, t: nat,
    i: nat, strengths: seq<nat>, total: real)
    requires i <= |agents|
    requires NetworkValid(network, |agents|)
    requires BinsValid(bins, |agents|)
    requires |strengths| == |ps|
    ensures var r := AgentPass(agents, network, ps, bins, p, rng, k, t, i, strengths, total);
      forall j :: i <= j < |agents| ==>
        && InBounds(r.agents[j])
        && SameTraits(agents[j], r.agents[j])
        && r.agents[j].affiliation == NearestParty(agents[j].x, ps)
    decreases |agents| - i
  {
    hide *;
    if i < |agents| {
      var r := AgentPass(agents, network, ps, bins, p, rng, k, t, i, strengths, total);
      var st := ProcessAgent(agents, network, i, ps, bins, p, rng, k);
      FirstNearestInRange(agents[i].x, ps, st.best);
      var strengths' := Tally(strengths, st.best);
      var total' := total + st.agents[i].x;
      PassPlacesAgents(st.agents, network, ps, bins, p, rng, st.next, t, i + 1, strengths', total');
      PassKeepsVisited(st.agents, network, ps, bins, p, rng, st.next, t, i + 1, strengths', total');
      var rest := AgentPass(st.agents, network, ps, bins, p, rng, st.next, t, i + 1, strengths', total');
      PassUnfold(agents, network, ps, bins, p, rng, k, t, i, strengths, total);
      PlaceCompose(agents, st.agents, rest.agents, i, ps);
    } else {
      PassEnd(agents, network, ps, bins, p, rng, k, t, i, strengths, total);
    }
  }

  /** Agent i placed by its visit, and the agents after it placed by the
      rest of the pass, make every agent from i on placed. */
  lemma PlaceCompose(a: seq<Agent>, b: seq<Agent>, c: seq<Agent>, i: nat, ps: seq<Party>)
    requires i < |a| == |b| == |c|
    requires forall j :: 0 <= j < |a| && j != i ==> OnlyVxDiffers(a[j], b[j])
    requires InBounds(b[i]) && SameTraits(a[i], b[i]) && b[i].affiliation == NearestParty(a[i].x, ps)
    requires OnlyVxDiffers(b[i], c[i])
    requires forall j :: i + 1 <= j < |b| ==>
      InBounds(c[j]) && SameTraits(b[j], c[j]) && c[j].affiliation == NearestParty(b[j].x, ps)
    ensures forall j :: i <= j < |a| ==>
      InBounds(c[j]) && SameTraits(a[j], c[j]) && c[j].affiliation == NearestParty(a[j].x, ps)
  {
    forall j | i <= j < |a|
      ensures InBounds(c[j]) && SameTraits(a[j], c[j]) && c[j].affiliation == NearestParty(a[j].x, ps)
    {
      if j > i {
        assert OnlyVxDiffers(a[j], b[j]);
      }
    }
  }

  /** With at least one party every visited agent is counted exactly once:
      the counts grow by the number of agents visited. */
  lemma {:induction false} PassCountsEveryAgent(
    agents: seq<Agent>, network: seq<seq<nat>>, ps: seq<Party>, bins: Bins, p: Params, rng: Rng, k: nat, t: nat,
    i: nat, strengths: seq<nat>, total: real)
    requires i <= |agents|
    requires NetworkValid(network, |agents|)
    requires BinsValid(bins, |agents|)
    requires |strengths| == |ps|
    ensures var r := AgentPass(agents, network, ps, bins, p, rng, k, t, i, strengths, total);
      && (|ps| > 0 ==> SumNat(r.strengths) == SumNat(strengths) + (|agents| - i))
      && (|ps| == 0 ==> r.strengths == strengths)
    decreases |agents| - i
  {
    hide *;
    if i < |agents| {
      var r := AgentPass(agents, network, ps, bins, p, rng, k, t, i, strengths, total);
      var st := ProcessAgent(agents, network, i, ps, bins, p, rng, k);
      FirstNearestInRange(agents[i].x, ps, st.best);
      var strengths' := Tally(strengths, st.best);
      var total' := total + st.agents[i].x;
      PassCountsEveryAgent(st.agents, network, ps, bins, p, rng, st.next, t, i + 1, strengths', total');
      var rest := AgentPass(st.agents, network, ps, bins, p, rng, st.next, t, i + 1, strengths', total');
      PassUnfold(agents, network, ps, bins, p, rng, k, t, i, strengths, total);
    } else {
      PassEnd(agents, network, ps, bins, p, rng, k, t, i, strengths, total);
    }
  }

  /** The running total the pass accumulates is the sum of the final
      ideologies of the visited agents. */
  lemma {:induction false} PassTotalsIdeology(
    agents: seq<Agent>, network: seq<seq<nat>>, ps: seq<Party>, bins: Bins, p: Params, rng: Rng, k: nat, t: nat,
    i: nat, strengths: seq<nat>, total: real)
    requires i <= |agents|
    requires NetworkValid(network, |agents|)
    requires BinsValid(bins, |agents|)
    requires |strengths| == |ps|
    ensures var r := AgentPass(agents, network, ps, bins, p, rng, k, t, i, strengths, total);
      r.total == total + SumX(r.agents[i..])
    decreases |agents| - i
  {
    hide *;
    if i < |agents| {
      var r := AgentPass(agents, network, ps, bins, p, rng, k, t, i, strengths, total);
      var st := ProcessAgent(agents, network, i, ps, bins, p, rng, k);
      FirstNearestInRange(agents[i].x, ps, st.best);
      var strengths' := Tally(strengths, st.best);
      var total' := total + st.agents[i].x;
      PassUnfold(agents, network, ps, bins, p, rng, k, t, i, strengths, total);
      PassTotalsIdeology(st.agents, network, ps, bins, p, rng, st.next, t, i + 1, strengths', total');
      PassKeepsVisited(st.agents, network, ps, bins, p, rng, st.next, t, i + 1, strengths', total');
      VisitedKeeps(st.agents[i], r.agents[i]);
      SumXFrom(r.agents, i);
    } else {
      PassEnd(agents, network, ps, bins, p, rng, k, t, i, strengths, total);
    }
  }

  /** The adherent counts the pass accumulates: each party's count grows by
      the number of visited agents that end the pass affiliated with it. */
  lemma {:induction false} PassTalliesAffiliations(
    agents: seq<Agent>, network: seq<seq<nat>>, ps: seq<Party>, bins: Bins, p: Params, rng: Rng, k: nat, t: nat,
    i: nat, strengths: seq<nat>, total: real)
    requires i <= |agents|
    requires NetworkValid(network, |agents|)
    requires BinsValid(bins, |agents|)
    requires |strengths| == |ps|
    ensures var r := AgentPass(agents, network, ps, bins, p, rng, k, t, i, strengths, total);
      forall q :: 0 <= q < |ps| ==> r.strengths[q] == strengths[q] + Adherents(r.agents[i..], q)
    decreases |agents| - i
  {
    hide *;
    if i < |agents| {
      var r := AgentPass(agents, network, ps, bins, p, rng, k, t, i, strengths, total);
      var st := ProcessAgent(agents, network, i, ps, bins, p, rng, k);
      FirstNearestInRange(agents[i].x, ps, st.best);
      var strengths' := Tally(strengths, st.best);
      var total' := total + st.agents[i].x;
      PassUnfold(agents, network, ps, bins, p, rng, k, t, i, strengths, total);
      PassTalliesAffiliations(st.agents, network, ps, bins, p, rng, st.next, t, i + 1, strengths', total');
      PassKeepsVisited(st.agents, network, ps, bins, p, rng, st.next, t, i + 1, strengths', total');
      var rest := AgentPass(st.agents, network, ps, bins, p, rng, st.next, t, i + 1, strengths', total');
      VisitedKeeps(st.agents[i], r.agents[i]);
      TallyCompose(strengths, strengths', rest.strengths, st.best, r.agents, i);
    } else {
      PassEnd(agents, network, ps, bins, p, rng, k, t, i, strengths, total);
    }
  }

  /** Agent i's tally, followed by the tallies of the agents after it. */
  lemma TallyCompose(strengths: seq<nat>, strengths': seq<nat>, final: seq<nat>, best: Option<nat>, a: seq<Agent>, i: nat)
    requires |strengths| == |strengths'| == |final| && i < |a|
    requires best.Some? ==> best.value < |strengths| && strengths'[best.value] == strengths[best.value] + 1
    requires forall q :: 0 <= q < |strengths| && best != Some(q) ==> strengths'[q] == strengths[q]
    requires a[i].affiliation == best
    requires forall q :: 0 <= q < |final| ==> final[q] == strengths'[q] + Adherents(a[i + 1..], q)
    ensures forall q :: 0 <= q < |final| ==> final[q] == strengths[q] + Adherents(a[i..], q)
  {
    assert a[i..][1..] == a[i + 1..];
  }

  /** One step of the pass: the result is that of the rest of the pass run
      on the state after agent i. */
  lemma PassUnfold(
    agents: seq<Agent>, network: seq<seq<nat>>, ps: seq<Party>, bins: Bins, p: Params, rng: Rng, k: nat, t: nat,
    i: nat, strengths: seq<nat>, total: real)
    requires i < |agents|
    requires NetworkValid(network, |agents|)
    requires BinsValid(bins, |agents|)
    requires |strengths| == |ps|
    ensures var st := ProcessAgent(agents, network, i, ps, bins, p, rng, k);
      var r := AgentPass(agents, network, ps, bins, p, rng, k, t, i, strengths, total);
      var rest := AgentPass(st.agents, network, ps, bins, p, rng, st.next, t, i + 1, Tally(strengths, st.best), total + st.agents[i].x);
      r.agents == rest.agents && r.total == rest.total && r.strengths == rest.strengths
  {
    hide ProcessAgent, Tally, NearestParty, MediaEvents, Steer, Noised, Moved, MediaNudged, MediaDraw, MediaShift, Clamp;
  }

  /** The pass past the last agent changes nothing. */
  lemma PassEnd(
    agents: seq<Agent>, network: seq<seq<nat>>, ps: seq<Party>, bins: Bins, p: Params, rng: Rng, k: nat, t: nat,
    i: nat, strengths: seq<nat>, total: real)
    requires i == |agents|
    requires NetworkValid(network, |agents|)
    requires BinsValid(bins, |agents|)
    requires |strengths| == |ps|
    ensures var r := AgentPass(agents, network, ps, bins, p, rng, k, t, i, strengths, total);
      && r.agents == agents && r.strengths == strengths && r.total == total
      && SumX(r.agents[i..]) == 0.0
      && (forall q :: Adherents(r.agents[i..], q) == 0)
      && (forall j :: 0 <= j < i ==> OnlyVxDiffers(agents[j], r.agents[j]))
  {
    assert agents[i..] == [];
  }

  lemma VisitedKeeps(a: Agent, b: Agent)
    requires OnlyVxDiffers(a, b)
    ensures a.x == b.x && a.affiliation == b.affiliation
  {
  }

  lemma FirstNearestInRange(x: real, ps: seq<Party>, best: Option<nat>)
    requires best == NearestParty(x, ps)
    ensures best.Some? ==> best.value < |ps|
  {
  }

  lemma SumXFrom(a: seq<Agent>, i: nat)
    requires i < |a|
    ensures SumX(a[i..]) == a[i].x + SumX(a[i + 1..])
  {
    assert a[i..][1..] == a[i + 1..];
  }

  /** The whole pass, from index 0 and a zero total: every agent ends inside
      the box, affiliated with the first nearest party of its position
      before the pass; the total is the sum of the final ideologies; and
      with at least one party every agent is counted once. */
  lemma WholePass(
    agents: seq<Agent>, network: seq<seq<nat>>, ps: seq<Party>, bins: Bins, p: Params, rng: Rng, k: nat, t: nat,
    strengths: seq<nat>)
    requires NetworkValid(network, |agents|)
    requires BinsValid(bins, |agents|)
    requires |strengths| == |ps|
    ensures var r := AgentPass(agents, network, ps, bins, p, rng, k, t, 0, strengths, 0.0);
      && AllInBounds(r.agents)
      && (forall j :: 0 <= j < |agents| ==>
            r.agents[j].affiliation == NearestParty(agents[j].x, ps) && SameTraits(agents[j], r.agents[j]))
      && r.total == SumX(r.agents)
      && (|ps| > 0 ==> SumNat(r.strengths) == SumNat(strengths) + |agents|)
      && (forall q :: 0 <= q < |ps| ==> r.strengths[q] == strengths[q] + Adherents(r.agents, q))
  {
    hide ProcessAgent, AgentPass, NearestParty, SumX, SumNat, Adherents;
    PassTalliesAffiliations(agents, network, ps, bins, p, rng, k, t, 0, strengths, 0.0);
    PassPlacesAgents(agents, network, ps, bins, p, rng, k, t, 0, strengths, 0.0);
    PassCountsEveryAgent(agents, network, ps, bins, p, rng, k, t, 0, strengths, 0.0);
    PassTotalsIdeology(agents, network, ps, bins, p, rng, k, t, 0, strengths, 0.0);
    var r := AgentPass(agents, network, ps, bins, p, rng, k, t, 0, strengths, 0.0);
    assert r.agents[0..] == r.agents;
  }
}

=== FILE: gini.dfy ===
/** `calculateGini`: the inequality of the per-party adherent counts. The
    counts are sorted ascending and weighted by `2(i+1) - n - 1`; the absolute
    weighted sum is divided by `n^2 * mean`, or by 1 when that product is 0 or
    NaN (the `|| 1` fallback). */
module Inequality {
  import opened Numeric

  predicate SortedAsc(s: seq<nat>)
  {
    forall i, j :: 0 <= i < j < |s| ==> s[i] <= s[j]
  }

  function Insert(x: nat, s: seq<nat>): (r: seq<nat>)
    requires SortedAsc(s)
    ensures SortedAsc(r)
    ensures multiset(r) == multiset(s) + multiset{x}
    ensures |r| == |s| + 1
    ensures SumNat(r) == x + SumNat(s)
  {
    if |s| == 0 || x <= s[0] then
      assert ([x] + s)[1..] == s;
      [x] + s
    else
      var rest := Insert(x, s[1..]);
      assert s == [s[0]] + s[1..];
      var r := [s[0]] + rest;
      assert r[1..] == rest;
      assert multiset(r) == multiset{s[0]} + multiset(rest);
      assert SumNat(r) == s[0] + SumNat(rest);
      BoundedByMembers(s[0], rest, s[1..] + [x]);
      ConsSorted(s[0], rest);
      r
  }

  /** A sequence whose elements all come from a sequence bounded below by h
      is bounded below by h. */
  lemma BoundedByMembers(h: nat, r: seq<nat>, from: seq<nat>)
    requires forall j :: 0 <= j < |from| ==> h <= from[j]
    requires multiset(r) == multiset(from)
    ensures forall j :: 0 <= j < |r| ==> h <= r[j]
  {
    forall j | 0 <= j < |r|
      ensures h <= r[j]
    {
      assert r[j] in multiset(from);
      var m :| 0 <= m < |from| && from[m] == r[j];
    }
  }

  /** A sorted sequence stays sorted with a lower bound of it in front. */
  lemma ConsSorted(h: nat, r: seq<nat>)
    requires SortedAsc(r)
    requires forall j :: 0 <= j < |r| ==> h <= r[j]
    ensures SortedAsc([h] + r)
  {
  }

  /** The ascending numeric sort `arr.sort((a, b) => a - b)`. */
  function SortAsc(s: seq<nat>): (r: seq<nat>)
    ensures SortedAsc(r)
    ensures multiset(r) == multiset(s)
    ensures |r| == |s|
    ensures SumNat(r) == SumNat(s)
  {
    if |s| == 0 then []
    else
      assert s == [s[0]] + s[1..];
      Insert(s[0], SortAsc(s[1..]))
  }

  /** The weight `2(i+1) - n - 1` the source gives the element at index i. */
  function Weight(i: int, n: int): int
  {
    2 * (i + 1) - n - 1
  }

  /** `sum(Weight(offset + i, n) * v[i])`: the weighted sum of a suffix that starts at index offset. */
  function WeightedSum(v: seq<nat>, n: int, offset: int): int
  {
    if |v| == 0 then 0 else Weight(offset, n) * v[0] + WeightedSum(v[1..], n, offset + 1)
  }

  /** The weights themselves, summed over m consecutive indices. */
  function WeightTotal(m: nat, n: int, offset: int): int
  {
    if m == 0 then 0 else Weight(offset, n) + WeightTotal(m - 1, n, offset + 1)
  }

  predicate AllEqual(s: seq<nat>)
  {
    forall i, j :: 0 <= i < |s| && 0 <= j < |s| ==> s[i] == s[j]
  }

  /** `n^2 * mean || 1`: with n == 0 the mean is 0/0 = NaN, with a zero total
      the product is 0, and both fall back to 1. */
  function Denominator(n: nat, total: nat): (d: real)
    ensures d > 0.0
    ensures n > 0 && total > 0 ==> d == n as real * total as real
    ensures !(n > 0 && total > 0) ==> d == 1.0
  {
    if n > 0 && total > 0 then
      DenominatorValue(n, total);
      (n * n) as real * (total as real / n as real)
    else 1.0
  }

  lemma DenominatorValue(n: nat, total: nat)
    requires n > 0 && total > 0
    ensures (n * n) as real * (total as real / n as real) == n as real * total as real
    ensures n as real * total as real > 0.0
  {
    var m := n as real;
    var t := total as real;
    assert (n * n) as real == m * m;
    assert m * (t / m) == t;
  }

  function Gini(counts: seq<nat>): (g: real)
    ensures g >= 0.0
    ensures AllEqual(counts) ==> g == 0.0
    ensures !AllEqual(counts) ==> g > 0.0
  {
    hide SortAsc, WeightedSum, SumNat, AllEqual;
    var sorted := SortAsc(counts);
    var n := |sorted|;
    var sum := WeightedSum(sorted, n, 0);
    var d := Denominator(n, SumNat(sorted));
    var a := Abs(sum as real);
    DivNonneg(a, d);
    EqualCountsWeighZero(counts);
    UnequalCountsWeighPositive(counts);
    DivPositive(a, d);
    a / d
  }

  lemma DivPositive(a: real, d: real)
    ensures a > 0.0 && d > 0.0 ==> a / d > 0.0
  {
  }

  /** Sorting unequal counts gives a positive weighted sum. */
  lemma UnequalCountsWeighPositive(counts: seq<nat>)
    ensures !AllEqual(counts) ==> WeightedSum(SortAsc(counts), |SortAsc(counts)|, 0) > 0
  {
    hide *;
    var sorted := SortAsc(counts);
    var n := |sorted|;
    if n > 0 && sorted[0] < sorted[n - 1] {
      WeightedSumOfSorted(sorted, n, 0);
      WeightTotalValue(n, n, 0);
      assert WeightTotal(n, n, 0) == 0 by {
        assert n * (2 * 0 + n - n) == 0;
      }
    } else {
      EndsMeet(sorted);
      SortedOfEqualIsEqual(sorted, counts);
    }
  }

  /** A sorted sequence whose first element is not below its last is constant. */
  lemma EndsMeet(s: seq<nat>)
    requires SortedAsc(s)
    requires !(|s| > 0 && s[0] < s[|s| - 1])
    ensures AllEqual(s)
  {
    forall a, b | 0 <= a < |s| && 0 <= b < |s|
      ensures s[a] == s[b]
    {
      assert s[0] <= s[a] <= s[|s| - 1];
      assert s[0] <= s[b] <= s[|s| - 1];
    }
  }

  /** On a sorted suffix that runs to index n, the weighted sum is at least
      the first element times the suffix's total weight, and exceeds it when
      the suffix is not constant. At offset 0 the total weight is 0, which
      gives the sign of the whole weighted sum. */
  lemma {:induction false} WeightedSumOfSorted(v: seq<nat>, n: int, offset: nat)
    requires |v| > 0 && offset + |v| == n
    requires SortedAsc(v)
    ensures WeightedSum(v, n, offset) >= v[0] * WeightTotal(|v|, n, offset)
    ensures v[0] < v[|v| - 1] ==> WeightedSum(v, n, offset) > v[0] * WeightTotal(|v|, n, offset)
  {
    hide *;
    WeightedSumUnfold(v, n, offset);
    WeightTotalUnfold(|v|, n, offset);
    if |v| == 1 {
      WeightedSumUnfold(v[1..], n, offset + 1);
      WeightTotalUnfold(0, n, offset + 1);
      assert v[0] == v[|v| - 1];
    } else {
      var rest := v[1..];
      SortedTail(v);
      WeightedSumOfSorted(rest, n, offset + 1);
      var tail := WeightTotal(|rest|, n, offset + 1);
      WeightTotalValue(|rest|, n, offset + 1);
      assert tail == |rest| * (offset + 1) by {
        assert |rest| * (2 * (offset + 1) + |rest| - n) == |rest| * (offset + 1);
      }
      PositiveProduct(|rest|, offset + 1);
      SortedStep(v[0], rest[0], Weight(offset, n), tail,
        WeightedSum(rest, n, offset + 1), WeightedSum(v, n, offset), rest[0] < rest[|rest| - 1]);
      assert rest[|rest| - 1] == v[|v| - 1];
    }
  }

  lemma WeightedSumUnfold(v: seq<nat>, n: int, offset: int)
    ensures |v| == 0 ==> WeightedSum(v, n, offset) == 0
    ensures |v| > 0 ==> WeightedSum(v, n, offset) == Weight(offset, n) * v[0] + WeightedSum(v[1..], n, offset + 1)
  {
  }

  lemma WeightTotalUnfold(m: nat, n: int, offset: int)
    ensures m == 0 ==> WeightTotal(m, n, offset) == 0
    ensures m > 0 ==> WeightTotal(m, n, offset) == Weight(offset, n) + WeightTotal(m - 1, n, offset + 1)
  {
  }

  lemma SortedTail(v: seq<nat>)
    requires |v| > 1 && SortedAsc(v)
    ensures SortedAsc(v[1..]) && v[0] <= v[1..][0]
  {
  }

  lemma PositiveProduct(a: int, b: int)
    requires a > 0 && b > 0
    ensures a * b > 0
  {
  }

  /** One more element a in front of a suffix headed by b >= a, with total
      tail weight t > 0: the suffix bound carries over to the longer one. */
  lemma SortedStep(a: nat, b: nat, w: int, t: int, rest: int, whole: int, restStrict: bool)
    requires a <= b && t > 0
    requires whole == w * a + rest
    requires rest >= b * t
    requires restStrict ==> rest > b * t
    ensures whole >= a * (w + t)
    ensures (a < b || restStrict) ==> whole > a * (w + t)
  {
    assert a * (w + t) == w * a + a * t;
    assert b * t - a * t == (b - a) * t;
    assert (b - a) * t >= 0;
    if a < b {
      assert (b - a) * t > 0;
    }
  }

  lemma DivAtMostOne(a: real, d: real)
    requires 0.0 <= a <= d && d > 0.0
    ensures a / d <= 1.0
  {
    assert a / d * d == a;
  }

  /** Sorting a vector of equal counts leaves the weighted sum at 0. */
  lemma EqualCountsWeighZero(counts: seq<nat>)
    ensures AllEqual(counts) ==> WeightedSum(SortAsc(counts), |SortAsc(counts)|, 0) == 0
  {
    if !AllEqual(counts) {
      return;
    }
    var sorted := SortAsc(counts);
    var n := |counts|;
    SortedOfEqualIsEqual(counts, sorted);
    assert |sorted| == n;
    WeightedSumOfConstant(sorted, n, 0);
    WeightTotalValue(n, n, 0);
    assert WeightTotal(n, n, 0) == 0 by {
      assert n * (2 * 0 + n - n) == n * 0 == 0;
    }
    if n > 0 {
      assert sorted[0] * WeightTotal(n, n, 0) == 0;
    }
  }

  lemma SortedOfEqualIsEqual(s: seq<nat>, r: seq<nat>)
    requires AllEqual(s)
    requires multiset(r) == multiset(s)
    ensures AllEqual(r)
    ensures |r| == |s|
    ensures |r| > 0 ==> forall j :: 0 <= j < |r| ==> r[j] == r[0]
  {
    assert |r| == |multiset(r)| == |multiset(s)| == |s|;
    forall j | 0 <= j < |r|
      ensures r[j] == s[0]
    {
      assert r[j] in multiset(r);
      assert r[j] in s;
    }
  }

  /** A vector whose entries are all c weighs c times the total weight. */
  lemma {:induction false} WeightedSumOfConstant(v: seq<nat>, n: int, offset: int)
    requires |v| > 0 ==> forall j :: 0 <= j < |v| ==> v[j] == v[0]
    ensures |v| > 0 ==> WeightedSum(v, n, offset) == v[0] * WeightTotal(|v|, n, offset)
    ensures |v| == 0 ==> WeightedSum(v, n, offset) == 0
  {
    if |v| > 1 {
      WeightedSumOfConstant(v[1..], n, offset + 1);
      assert v[1..][0] == v[0];
      assert WeightedSum(v, n, offset)
        == Weight(offset, n) * v[0] + v[0] * WeightTotal(|v| - 1, n, offset + 1);
    }
  }

  /** The weights over m indices from offset add up to m(2 offset + m - n). */
  lemma {:induction false} WeightTotalValue(m: nat, n: int, offset: int)
    ensures WeightTotal(m, n, offset) == m * (2 * offset + m - n)
  {
    if m > 0 {
      WeightTotalValue(m - 1, n, offset + 1);
      assert WeightTotal(m, n, offset)
        == (2 * offset + 1 - n) + (m - 1) * (2 * offset + m + 1 - n);
    }
  }

  /** Each weight on indices 0 .. n-1 is at most n-1 in size, so the weighted
      sum is at most (n-1) times the plain sum in size. */
  lemma {:induction false} WeightedSumBound(v: seq<nat>, n: int, offset: int)
    requires 0 <= offset
    requires offset + |v| <= n
    ensures -((n - 1) * SumNat(v)) <= WeightedSum(v, n, offset) <= (n - 1) * SumNat(v)
  {
    if |v| > 0 {
      WeightedSumBound(v[1..], n, offset + 1);
      var w := Weight(offset, n);
      ScaledBound(w, v[0], n - 1);
      var rest := WeightedSum(v[1..], n, offset + 1);
      assert WeightedSum(v, n, offset) == w * v[0] + rest;
      Distribute(n - 1, v[0], SumNat(v[1..]));
    }
  }

  lemma Distribute(b: int, x: int, y: int)
    ensures b * (x + y) == b * x + b * y
  {
  }

  lemma ScaledBound(w: int, x: nat, b: int)
    requires -b <= w <= b
    ensures -(b * x) <= w * x <= b * x
  {
    assert (b - w) * x >= 0;
    assert (b + w) * x >= 0;
  }

  /** The coefficient never exceeds 1 (it stays below (n-1)/n). */
  lemma GiniAtMostOne(counts: seq<nat>)
    ensures Gini(counts) <= 1.0
  {
    var sorted := SortAsc(counts);
    var n := |sorted|;
    var total := SumNat(sorted);
    var sum := WeightedSum(sorted, n, 0);
    var d := Denominator(n, total);
    WeightedSumBound(sorted, n, 0);
    CastProductBound(sum, n, total);
    DivAtMostOne(Abs(sum as real), d);
  }

  /** A weighted sum within (n-1) times the total is within the denominator. */
  lemma CastProductBound(sum: int, n: nat, total: nat)
    requires -((n - 1) * total) <= sum <= (n - 1) * total
    ensures Abs(sum as real) <= Denominator(n, total)
  {
    if n > 0 && total > 0 {
      assert (n - 1) * total <= n * total by {
        assert n * total - (n - 1) * total == total;
      }
      assert (n * total) as real == n as real * total as real;
    } else if n > 0 {
      assert (n - 1) * total == 0;
    } else {
      assert (n - 1) * total == -total;
    }
  }
}

=== FILE: metrics.dfy ===
/** The aggregate indicators computed after the agent pass: polarization
    (twice the standard deviation of ideology), judiciary capacity and
    legislative output. */
module Metrics {
  import opened Numeric
  import opened Model

  /** The sum of squared deviations of the agents' ideologies from `mean`. */
  function SquaredDeviations(agents: seq<Agent>, mean: real): (r: real)
    ensures r >= 0.0
  {
    if |agents| == 0 then 0.0
    else
      var d := agents[0].x - mean;
      d * d + SquaredDeviations(agents[1..], mean)
  }

  /** The polarization the step computes from the running ideology total it
      accumulated during the pass: the mean is `total / n`. */
  function MeasurePolarization(agents: seq<Agent>, total: real): (p: Polarization)
    ensures p.NotANumber? <==> |agents| == 0
    ensures p.Measured? ==> p.meanSquare >= 0.0
  {
    var n := |agents|;
    if n == 0 then NotANumber
    else
      var variance := SquaredDeviations(agents, total / n as real);
      DivNonneg(variance, n as real);
      Measured(variance / n as real)
  }

  function SumSquares(agents: seq<Agent>): real
  {
    if |agents| == 0 then 0.0 else agents[0].x * agents[0].x + SumSquares(agents[1..])
  }

  /** An independent definition: the mean of the squares less the square of
      the mean, NaN for an empty population. */
  function PolarizationOf(agents: seq<Agent>): (p: Polarization)
    ensures p.NotANumber? <==> |agents| == 0
  {
    if |agents| == 0 then NotANumber
    else
      var n := |agents| as real;
      var mean := SumX(agents) / n;
      Measured(SumSquares(agents) / n - mean * mean)
  }

  /** The polarization the step computes from its running total, when that
      total is the sum of the final ideologies, is the mean of the squares
      less the square of the mean. */
  lemma RunningTotalGivesPolarization(agents: seq<Agent>, total: real)
    requires total == SumX(agents)
    ensures MeasurePolarization(agents, total) == PolarizationOf(agents)
  {
    hide *;
    if |agents| == 0 {
      assert MeasurePolarization(agents, total) == PolarizationOf(agents) == NotANumber;
    } else {
      var n := |agents| as real;
      var m := total / n;
      MeasuresUnfold(agents, total);
      DeviationsExpand(agents, m);
      MeanSquareStep(SquaredDeviations(agents, m), SumSquares(agents), SumX(agents), total, n, m);
    }
  }

  lemma MeasuresUnfold(agents: seq<Agent>, total: real)
    requires |agents| > 0 && total == SumX(agents)
    ensures var n := |agents| as real;
      && MeasurePolarization(agents, total) == Measured(SquaredDeviations(agents, total / n) / n)
      && PolarizationOf(agents) == Measured(SumSquares(agents) / n - (total / n) * (total / n))
  {
  }

  /** With mean m = total / n, the expanded squared deviations over n give the
      mean of the squares less the square of the mean. */
  lemma MeanSquareStep(dev: real, squares: real, sum: real, total: real, n: real, m: real)
    requires n > 0.0 && sum == total && m == total / n
    requires dev == squares - 2.0 * m * sum + n * m * m
    ensures dev / n == squares / n - m * m
  {
    assert total == m * n;
    assert 2.0 * m * total == 2.0 * (m * m) * n;
    assert n * m * m == (m * m) * n;
    assert dev == squares - (m * m) * n;
  }

  /** The sum of squared deviations about m, expanded. */
  lemma {:induction false} DeviationsExpand(agents: seq<Agent>, m: real)
    ensures SquaredDeviations(agents, m)
         == SumSquares(agents) - 2.0 * m * SumX(agents) + |agents| as real * m * m
  {
    hide *;
    if |agents| == 0 {
      EmptySums(agents, m);
    } else {
      var rest := agents[1..];
      DeviationsExpand(rest, m);
      SumsUnfold(agents, m);
      ExpandStep(agents[0].x, m, |rest| as real, SumSquares(rest), SumX(rest), SquaredDeviations(rest, m),
        SquaredDeviations(agents, m), SumSquares(agents), SumX(agents), |agents| as real);
    }
  }

  lemma EmptySums(agents: seq<Agent>, m: real)
    requires |agents| == 0
    ensures SquaredDeviations(agents, m) == 0.0 && SumSquares(agents) == 0.0 && SumX(agents) == 0.0
  {
  }

  lemma SumsUnfold(agents: seq<Agent>, m: real)
    requires |agents| > 0
    ensures SquaredDeviations(agents, m) == (agents[0].x - m) * (agents[0].x - m) + SquaredDeviations(agents[1..], m)
    ensures SumSquares(agents) == agents[0].x * agents[0].x + SumSquares(agents[1..])
    ensures SumX(agents) == agents[0].x + SumX(agents[1..])
  {
  }

  /** The inductive step of the expansion, on plain numbers: one more agent
      at ideology x on top of a remainder of k agents. */
  lemma ExpandStep(x: real, m: real, k: real, squares: real, sum: real, dev: real,
                   dev': real, squares': real, sum': real, n: real)
    requires dev == squares - 2.0 * m * sum + k * m * m
    requires dev' == (x - m) * (x - m) + dev
    requires squares' == x * x + squares && sum' == x + sum && n == k + 1.0
    ensures dev' == squares' - 2.0 * m * sum' + n * m * m
  {
    assert (x - m) * (x - m) == x * x - 2.0 * m * x + m * m;
    assert 2.0 * m * (x + sum) == 2.0 * m * x + 2.0 * m * sum;
    assert (k + 1.0) * m * m == k * m * m + m * m;
  }

  /** When every agent holds the same ideology there is no polarization. */
  lemma ConsensusHasNoPolarization(agents: seq<Agent>, c: real)
    requires forall j :: 0 <= j < |agents| ==> agents[j].x == c
    ensures |agents| > 0 ==> PolarizationOf(agents) == Measured(0.0)
  {
    if |agents| > 0 {
      var n := |agents| as real;
      SumOfConstant(agents, c);
      assert SumX(agents) / n == c;
      NoDeviationFromConstant(agents, c);
      RunningTotalGivesPolarization(agents, SumX(agents));
    }
  }

  lemma {:induction false} SumOfConstant(agents: seq<Agent>, c: real)
    requires forall j :: 0 <= j < |agents| ==> agents[j].x == c
    ensures SumX(agents) == |agents| as real * c
  {
    if |agents| > 0 {
      SumOfConstant(agents[1..], c);
    }
  }

  lemma {:induction false} NoDeviationFromConstant(agents: seq<Agent>, c: real)
    requires forall j :: 0 <= j < |agents| ==> agents[j].x == c
    ensures SquaredDeviations(agents, c) == 0.0
  {
    if |agents| > 0 {
      NoDeviationFromConstant(agents[1..], c);
    }
  }

  /** The threshold tests against the mean square agree with the source's
      tests against `2 * sqrt(meanSquare)`: s is that square root. */
  lemma ThresholdsMatchSquareRoot(s: real, t: real)
    requires s >= 0.0 && t >= 0.0
    ensures Above(Measured(s * s), t) <==> 2.0 * s > t
    ensures Below(Measured(s * s), t) <==> 2.0 * s < t
  {
    var h := t / 2.0;
    if s > h {
      PositiveProduct(s - h, s + h);
      assert s * s - h * h == (s - h) * (s + h);
    } else if s < h {
      PositiveProduct(h - s, h + s);
      assert h * h - s * s == (h - s) * (h + s);
    }
  }

  lemma PositiveProduct(a: real, b: real)
    requires a > 0.0 && b > 0.0
    ensures a * b > 0.0
  {
  }

  /** Judiciary capacity loses 0.1 under polarization above 0.8, otherwise
      (NaN included) gains 0.05, and is then kept within [0, 100]. */
  function NextJudiciary(j: real, p: Polarization): (r: real)
    ensures 0.0 <= r <= 100.0
    ensures Above(p, 0.8) && 0.1 <= j <= 100.1 ==> r == j - 0.1
    ensures !Above(p, 0.8) && -0.05 <= j <= 99.95 ==> r == j + 0.05
    ensures Above(p, 0.8) && 0.0 <= j ==> r <= j
    ensures !Above(p, 0.8) && j <= 100.0 ==> r >= j
  {
    var moved := if Above(p, 0.8) then j - 0.1 else j + 0.05;
    MaxMin(0.0, 100.0, moved)
  }

  /** The legislative gain of a step: 0.2 when polarization is below 0.6,
      nothing when it is above 1.2, 0.05 in between and for NaN. */
  function LegislativeGain(p: Polarization): (g: real)
    ensures g == 0.2 <==> Below(p, 0.6)
    ensures g == 0.0 <==> Above(p, 1.2)
    ensures g == 0.05 <==> !Below(p, 0.6) && !Above(p, 1.2)
  {
    if Below(p, 0.6) then 0.2
    else if Above(p, 1.2) then 0.0
    else 0.05
  }
}

=== FILE: model.dfy ===
/** The entities of the polarization simulation: agents, parties, the tunable
    parameters, the metrics log, the narrative event log and the simulation
    state that owns them all. Object references of the source (an agent's
    friends, its party affiliation) are indices into the owning sequences. */
module Model {
  import opened Numeric

  datatype Option<T> = None | Some(value: T)

  /** The source of `Math.random()`: draw number k of a run is `rng(k)`.
      Every operation that draws takes a cursor and returns the next one. */
  type Rng = nat -> real

  /** The contract of `Math.random()`: every draw lies in [0, 1). */
  ghost predicate UnitDraws(rng: Rng)
  {
    forall k: nat :: Unit(rng(k))
  }

  /** x is ideology (-1 left to 1 right), y the social-cluster axis. An
      agent's friend list never changes after initialisation, so it is kept
      beside the agents, in `Sim.network`, rather than inside them. */
  datatype Agent = Agent(
    x: real,
    y: real,
    vx: real,
    vy: real,
    demographic: real,
    radicalization: real,
    affiliation: Option<nat>)

  datatype Party = Party(
    name: string,
    color: string,
    baseIdeology: real,
    currentIdeology: real,
    yPos: real,
    influenceRadius: real)

  /** The slider-controlled parameters; values are not validated by the source. */
  datatype Params = Params(
    affectivePolarization: real,
    partyOpportunism: real,
    noise: real,
    mediaFrequency: real,
    radicalizationScale: real,
    simulationSpeed: int)

  /** Polarization is `2 * sqrt(m)` where m is the mean square deviation of
      the agents' ideology; it is kept as m so that comparisons need no square
      root. With no agents the source divides 0 by 0 and gets NaN. */
  datatype Polarization = Measured(meanSquare: real) | NotANumber

  /** `polarization > t` for a threshold t >= 0: 2 * sqrt(m) > t iff m > (t/2)^2.
      Every comparison with NaN is false. */
  predicate Above(p: Polarization, t: real)
  {
    p.Measured? && p.meanSquare > (t / 2.0) * (t / 2.0)
  }

  /** `polarization < t` for a threshold t > 0. */
  predicate Below(p: Polarization, t: real)
  {
    p.Measured? && p.meanSquare < (t / 2.0) * (t / 2.0)
  }

  datatype LogEntry = LogEntry(
    time: nat,
    polarization: Polarization,
    judiciary: real,
    legislative: real,
    gini: real)

  datatype EventKind =
    | PartyShift(party: string)
    | MediaNudge(rightward: bool)
    | JudiciaryCritical
    | MassRadicalization
    | CoalitionFormed
    | SimulationPaused
    | SimulationResumed
    | SystemReset
    | DataExported

  /** A narrative log entry, stamped with the step counter at which it was logged. */
  datatype Event = Event(time: nat, kind: EventKind)

  /** `network[i]` lists the indices of agent i's friends. */
  datatype Sim = Sim(
    agents: seq<Agent>,
    network: seq<seq<nat>>,
    parties: seq<Party>,
    time: nat,
    polarization: Polarization,
    judiciaryCapacity: real,
    legislativeOutput: real,
    metricsLog: seq<LogEntry>,
    params: Params,
    paused: bool,
    events: seq<Event>)

  /** The position box every agent is returned to at the end of its update. */
  predicate InBounds(a: Agent)
  {
    -1.1 <= a.x <= 1.1 && 0.0 <= a.y <= 1.0
  }

  predicate AllInBounds(agents: seq<Agent>)
  {
    forall j :: 0 <= j < |agents| ==> InBounds(agents[j])
  }

  /** Every friend reference names an agent of a population of size n. */
  predicate NetworkValid(network: seq<seq<nat>>, n: nat)
  {
    |network| == n && forall i, f :: 0 <= i < |network| && f in network[i] ==> f < n
  }

  /** The fields fixed at creation: demographic and radicalization. */
  predicate SameTraits(a: Agent, b: Agent)
  {
    a.demographic == b.demographic && a.radicalization == b.radicalization
  }

  lemma SameTraitsCompose(a: Agent, b: Agent, c: Agent)
    requires SameTraits(a, b) && SameTraits(b, c)
    ensures SameTraits(a, c)
  {
  }

  /** b is a with at most its x-velocity changed. */
  predicate OnlyVxDiffers(a: Agent, b: Agent)
  {
    && a.x == b.x && a.y == b.y && a.vy == b.vy
    && a.affiliation == b.affiliation && SameTraits(a, b)
  }

  predicate WellFormed(s: Sim)
  {
    NetworkValid(s.network, |s.agents|)
  }

  /** The metrics log holds one entry per ten steps, stamped 10, 20, ... in order. */
  predicate LogCadence(s: Sim)
  {
    |s.metricsLog| == s.time / 10
    && forall m :: 0 <= m < |s.metricsLog| ==> s.metricsLog[m].time == 10 * (m + 1)
  }

  function SumX(agents: seq<Agent>): real
  {
    if |agents| == 0 then 0.0 else agents[0].x + SumX(agents[1..])
  }

  /** The number of agents affiliated with party q. */
  function Adherents(agents: seq<Agent>, q: nat): nat
  {
    if |agents| == 0 then 0
    else (if agents[0].affiliation == Some(q) then 1 else 0) + Adherents(agents[1..], q)
  }

  /** The adherent count of each of n parties, in party order. */
  function AdherentCounts(agents: seq<Agent>, n: nat): (c: seq<nat>)
    ensures |c| == n && forall q :: 0 <= q < n ==> c[q] == Adherents(agents, q)
  {
    seq(n, q requires 0 <= q < n => Adherents(agents, q))
  }
}

=== FILE: numeric.dfy ===
/** Real-number helpers shared by the simulation: absolute value, the two-sided
    bounds check the update applies to positions, the linear rescaling helper
    `map` of the source, and sums over count vectors. */
module Numeric {

  function Abs(v: real): (r: real)
    ensures r >= 0.0
    ensures r == v || r == -v
  {
    if v < 0.0 then -v else v
  }

  /** The pair of successive bounds checks `if (v < lo) v = lo; if (v > hi) v = hi;`. */
  function Clamp(v: real, lo: real, hi: real): (r: real)
    requires lo <= hi
    ensures lo <= r <= hi
    ensures lo <= v <= hi ==> r == v
    ensures v < lo ==> r == lo
    ensures v > hi ==> r == hi
  {
    var low := if v < lo then lo else v;
    if low > hi then hi else low
  }

  /** `Math.max(lo, Math.min(hi, v))`, the form used for judiciary capacity. */
  function MaxMin(lo: real, hi: real, v: real): (r: real)
    requires lo <= hi
    ensures lo <= r <= hi
    ensures lo <= v <= hi ==> r == v
    ensures v < lo ==> r == lo
    ensures v > hi ==> r == hi
  {
    var upper := if v < hi then v else hi;
    if lo > upper then lo else upper
  }

  /** The source's linear rescaling `map(value, minA, maxA, minB, maxB)`;
      it is only ever called with `minA != maxA`. */
  function Rescale(value: real, minA: real, maxA: real, minB: real, maxB: real): (r: real)
    requires minA != maxA
    ensures value == minA ==> r == minB
    ensures value == maxA ==> r == maxB
    ensures minA < maxA && minB <= maxB && minA <= value <= maxA ==> minB <= r <= maxB
  {
    var t := (value - minA) / (maxA - minA);
    RescaleSteps(value, minA, maxA, minB, maxB, t);
    minB + (value - minA) * (maxB - minB) / (maxA - minA)
  }

  /** The rescaled value is minB plus the fraction t of the way from minA
      to maxA, applied to the interval [minB, maxB]. */
  lemma RescaleSteps(value: real, minA: real, maxA: real, minB: real, maxB: real, t: real)
    requires minA != maxA && t == (value - minA) / (maxA - minA)
    ensures (value - minA) * (maxB - minB) / (maxA - minA) == t * (maxB - minB)
    ensures value == minA ==> t == 0.0
    ensures value == maxA ==> t == 1.0
    ensures minA < maxA && minA <= value <= maxA ==> 0.0 <= t <= 1.0
    ensures 0.0 <= t <= 1.0 && minB <= maxB ==> 0.0 <= t * (maxB - minB) <= maxB - minB
  {
    var w := maxA - minA;
    assert t * w == value - minA;
    assert (value - minA) * (maxB - minB) == t * (maxB - minB) * w;
    if minA < maxA && minA <= value <= maxA {
      assert value - minA <= w;
      assert t * w <= 1.0 * w;
    }
    if 0.0 <= t <= 1.0 && minB <= maxB {
      assert (1.0 - t) * (maxB - minB) >= 0.0;
    }
  }

  /** A non-negative quantity divided by a positive one stays non-negative. */
  lemma DivNonneg(a: real, d: real)
    requires a >= 0.0 && d > 0.0
    ensures a / d >= 0.0
  {
  }

  /** `Math.random()` draws lie in [0, 1). */
  predicate Unit(u: real)
  {
    0.0 <= u < 1.0
  }

  function SumNat(s: seq<nat>): nat
  {
    if |s| == 0 then 0 else s[0] + SumNat(s[1..])
  }

  /** Incrementing one entry of a count vector raises its total by one. */
  lemma {:induction false} SumNatIncrement(s: seq<nat>, q: nat)
    requires q < |s|
    ensures SumNat(s[q := s[q] + 1]) == SumNat(s) + 1
  {
    if q == 0 {
      assert s[q := s[q] + 1][1..] == s[1..];
    } else {
      SumNatIncrement(s[1..], q - 1);
      assert s[q := s[q] + 1][1..] == s[1..][q - 1 := s[q] + 1];
    }
  }

  /** `floor(u * n)` for a draw `u` in [0, 1) is a valid index into n elements. */
  lemma ScaledDrawIsIndex(u: real, n: nat)
    requires Unit(u)
    requires n > 0
    ensures 0 <= (u * n as real).Floor < n
  {
    var m := n as real;
    assert u * m >= 0.0;
    assert u * m < m by {
      assert (1.0 - u) * m > 0.0;
    }
  }
}

=== FILE: party_strategy.dfy ===
/** The first phase of a step: each party, in list order, may make an
    opportunistic jump a tenth of the way toward a random target, and then
    always reverts one percent of the way back to its base ideology. */
module PartyStrategy {
  import opened Numeric
  import opened Model

  /** The jump target `(Math.random() - 0.5) * 1.5`. */
  function JumpTarget(u: real): (t: real)
    ensures Unit(u) ==> -0.75 <= t < 0.75
  {
    (u - 0.5) * 1.5
  }

  /** The ideology after the optional jump, before reversion. */
  function Jumped(p: Party, jump: bool, u: real): real
  {
    if jump then p.currentIdeology + (JumpTarget(u) - p.currentIdeology) * 0.1 else p.currentIdeology
  }

  /** One party's drift; `jump` is the outcome of `Math.random() < 0.01 * partyOpportunism`
      and u the target draw, read only when the jump fires. */
  function DriftParty(p: Party, jump: bool, u: real): (r: Party)
    ensures r == p.(currentIdeology := r.currentIdeology)
    ensures r.currentIdeology - r.baseIdeology == 0.99 * (Jumped(p, jump, u) - p.baseIdeology)
    ensures !jump ==> Abs(r.currentIdeology - r.baseIdeology) == 0.99 * Abs(p.currentIdeology - p.baseIdeology)
    ensures jump ==> Jumped(p, jump, u) - p.currentIdeology == 0.1 * (JumpTarget(u) - p.currentIdeology)
  {
    var mid := Jumped(p, jump, u);
    p.(currentIdeology := mid + (p.baseIdeology - mid) * 0.01)
  }

  datatype PartyPhase = PartyPhase(parties: seq<Party>, next: nat, events: seq<Event>)

  /** Drift the parties from index q on, drawing from cursor k; shifts are
      logged at time t. */
  function DriftParties(ps: seq<Party>, opportunism: real, rng: Rng, k: nat, t: nat, q: nat): (r: PartyPhase)
    requires q <= |ps|
    ensures |r.parties| == |ps|
    ensures forall j :: 0 <= j < |ps| ==> r.parties[j] == ps[j].(currentIdeology := r.parties[j].currentIdeology)
    ensures forall j :: 0 <= j < q ==> r.parties[j] == ps[j]
    ensures k + (|ps| - q) <= r.next <= k + 2 * (|ps| - q)
    ensures forall e :: e in r.events ==> e.time == t && e.kind.PartyShift?
    ensures opportunism <= 0.0 && UnitDraws(rng) ==>
      forall j :: q <= j < |ps| ==> r.parties[j].currentIdeology - ps[j].baseIdeology
                                      == 0.99 * (ps[j].currentIdeology - ps[j].baseIdeology)
    decreases |ps| - q
  {
    if q == |ps| then PartyPhase(ps, k, [])
    else
      var jump := rng(k) < 0.01 * opportunism;
      var u := if jump then rng(k + 1) else 0.0;
      var k' := if jump then k + 2 else k + 1;
      var p' := DriftParty(ps[q], jump, u);
      var shift := if jump then [Event(t, PartyShift(ps[q].name))] else [];
      var rest := DriftParties(ps[q := p'], opportunism, rng, k', t, q + 1);
      PartyPhase(rest.parties, rest.next, shift + rest.events)
  }

  /** Each party from q on ends the phase as `DriftParty` makes it: either
      its roll, some draw at or after k, missed and it only reverted, or the
      roll hit and the draw after it gave the jump target. */
  lemma {:induction false} DriftPartiesDraws(ps: seq<Party>, opportunism: real, rng: Rng, k: nat, t: nat, q: nat)
    requires q <= |ps|
    ensures var r := DriftParties(ps, opportunism, rng, k, t, q);
      forall j :: q <= j < |ps| ==>
        (exists d: nat :: k <= d && !(rng(d) < 0.01 * opportunism) && r.parties[j] == DriftParty(ps[j], false, 0.0)) ||
        (exists d: nat :: k <= d && rng(d) < 0.01 * opportunism && r.parties[j] == DriftParty(ps[j], true, rng(d + 1)))
    decreases |ps| - q
  {
    if q < |ps| {
      var r := DriftParties(ps, opportunism, rng, k, t, q);
      var jump := rng(k) < 0.01 * opportunism;
      var u := if jump then rng(k + 1) else 0.0;
      var k' := if jump then k + 2 else k + 1;
      var ps' := ps[q := DriftParty(ps[q], jump, u)];
      DriftPartiesDraws(ps', opportunism, rng, k', t, q + 1);
      var rest := DriftParties(ps', opportunism, rng, k', t, q + 1);
      assert r.parties == rest.parties;
      assert r.parties[q] == DriftParty(ps[q], jump, u);
    }
  }

  /** Without a jump the distance to the base ideology shrinks geometrically:
      after n reversions it is 0.99^n of what it was. */
  function Revert(p: Party, n: nat): Party
    decreases n
  {
    if n == 0 then p else Revert(DriftParty(p, false, 0.0), n - 1)
  }

  function Pow99(n: nat): real
  {
    if n == 0 then 1.0 else 0.99 * Pow99(n - 1)
  }

  lemma {:induction false} RevertShrinks(p: Party, n: nat)
    ensures Revert(p, n).baseIdeology == p.baseIdeology
    ensures Revert(p, n).currentIdeology - p.baseIdeology == Pow99(n) * (p.currentIdeology - p.baseIdeology)
    decreases n
  {
    if n > 0 {
      var p1 := DriftParty(p, false, 0.0);
      RevertShrinks(p1, n - 1);
      assert Pow99(n - 1) * (p1.currentIdeology - p.baseIdeology)
          == Pow99(n - 1) * (0.99 * (p.currentIdeology - p.baseIdeology));
    }
  }
}

=== FILE: setup.dfy ===
/** Building a population: the agent constructor's draws, the synthetic
    population used when no survey data loads, the survey records loaded
    otherwise, the random friendship network, the fixed party roster, and
    `initSim` with the reset that calls it. */
module Setup {
  import opened Numeric
  import opened Model

  /** The cap on the number of agents, synthetic or loaded. */
  const PopulationSize: nat := 600

  /** The number of friendship draws per agent. */
  const FriendDraws: nat := 5

  /** The slider defaults the page starts with. */
  const DefaultParams := Params(0.5, 0.3, 0.005, 0.005, 1.0, 1)

  /** `new Agent(x, y)`: draws vx, vy, the demographic and the radicalization,
      in that order. Radicalization is drawn from [0, 0.4) for a demographic
      below 0.3 and from [0, 0.1) otherwise. */
  function MakeAgent(x: real, y: real, rng: Rng, k: nat): (a: Agent)
    ensures a.x == x && a.y == y && a.affiliation == None
    ensures a.demographic == rng(k + 2)
    ensures Unit(rng(k)) && Unit(rng(k + 1)) ==> -0.001 <= a.vx < 0.001 && -0.001 <= a.vy < 0.001
    ensures Unit(rng(k + 3)) ==> 0.0 <= a.radicalization < (if a.demographic < 0.3 then 0.4 else 0.1)
  {
    var demographic := rng(k + 2);
    Agent(x, y,
      (rng(k) - 0.5) * 0.002,
      (rng(k + 1) - 0.5) * 0.002,
      demographic,
      if demographic < 0.3 then rng(k + 3) * 0.4 else rng(k + 3) * 0.1,
      None)
  }

  /** The sum of six uniforms, recentred and scaled: `(Σ u - 3) / 3`. */
  function SyntheticIdeology(rng: Rng, k: nat): (x: real)
    ensures (forall d :: k <= d < k + 6 ==> Unit(rng(d))) ==> -1.0 <= x < 1.0
  {
    var total := rng(k) + rng(k + 1) + rng(k + 2) + rng(k + 3) + rng(k + 4) + rng(k + 5);
    SixUniforms(rng, k);
    (total - 3.0) / 3.0
  }

  lemma SixUniforms(rng: Rng, k: nat)
    ensures (forall d :: k <= d < k + 6 ==> Unit(rng(d))) ==>
      0.0 <= rng(k) + rng(k + 1) + rng(k + 2) + rng(k + 3) + rng(k + 4) + rng(k + 5) < 6.0
  {
    if forall d :: k <= d < k + 6 ==> Unit(rng(d)) {
      assert Unit(rng(k)) && Unit(rng(k + 1)) && Unit(rng(k + 2));
      assert Unit(rng(k + 3)) && Unit(rng(k + 4)) && Unit(rng(k + 5));
    }
  }

  datatype Population = Population(agents: seq<Agent>, next: nat)

  /** The fallback population: `count` agents, each from 11 draws (six for
      the ideology, one for y, four in the constructor). */
  function SyntheticAgents(count: nat, rng: Rng, k: nat): (r: Population)
    ensures |r.agents| == count && r.next == k + 11 * count
    ensures forall j :: 0 <= j < count ==>
      r.agents[j] == MakeAgent(SyntheticIdeology(rng, k + 11 * j), rng(k + 11 * j + 6), rng, k + 11 * j + 7)
    ensures forall j :: 0 <= j < count ==>
      r.agents[j].x == SyntheticIdeology(rng, k + 11 * j) && r.agents[j].y == rng(k + 11 * j + 6)
    ensures UnitDraws(rng) ==> forall j :: 0 <= j < count ==> -1.0 <= r.agents[j].x < 1.0
    ensures UnitDraws(rng) ==> AllInBounds(r.agents)
    decreases count
  {
    hide *;
    if count == 0 then Population([], k)
    else
      var a := MakeAgent(SyntheticIdeology(rng, k), rng(k + 6), rng, k + 7);
      var rest := SyntheticAgents(count - 1, rng, k + 11);
      SyntheticAgent(rng, k);
      SyntheticCons(a, rest.agents, rng, k, count);
      Population([a] + rest.agents, rest.next)
  }

  /** The synthetic agent read from cursor k, and its place in the box. */
  lemma SyntheticAgent(rng: Rng, k: nat)
    ensures var a := MakeAgent(SyntheticIdeology(rng, k), rng(k + 6), rng, k + 7);
      && a.x == SyntheticIdeology(rng, k)
      && (UnitDraws(rng) ==> -1.0 <= a.x < 1.0 && InBounds(a))
  {
    if UnitDraws(rng) {
      assert forall d :: k <= d < k + 6 ==> Unit(rng(d));
      assert Unit(rng(k + 6));
    }
  }

  /** Putting the agent of cursor k in front of the agents of cursor k + 11
      on keeps the closed form of the population. */
  lemma SyntheticCons(a: Agent, rest: seq<Agent>, rng: Rng, k: nat, count: nat)
    requires count > 0 && |rest| == count - 1
    requires a == MakeAgent(SyntheticIdeology(rng, k), rng(k + 6), rng, k + 7)
    requires forall j :: 0 <= j < count - 1 ==>
      rest[j] == MakeAgent(SyntheticIdeology(rng, k + 11 + 11 * j), rng(k + 11 + 11 * j + 6), rng, k + 11 + 11 * j + 7)
    requires UnitDraws(rng) ==> -1.0 <= a.x < 1.0 && InBounds(a)
    requires UnitDraws(rng) ==> (forall j :: 0 <= j < count - 1 ==> -1.0 <= rest[j].x < 1.0) && AllInBounds(rest)
    ensures forall j :: 0 <= j < count ==>
      ([a] + rest)[j] == MakeAgent(SyntheticIdeology(rng, k + 11 * j), rng(k + 11 * j + 6), rng, k + 11 * j + 7)
    ensures forall j :: 0 <= j < count ==>
      ([a] + rest)[j].x == SyntheticIdeology(rng, k + 11 * j) && ([a] + rest)[j].y == rng(k + 11 * j + 6)
    ensures UnitDraws(rng) ==> (forall j :: 0 <= j < count ==> -1.0 <= ([a] + rest)[j].x < 1.0) && AllInBounds([a] + rest)
  {
    hide MakeAgent, SyntheticIdeology;
    forall j | 1 <= j < count
      ensures ([a] + rest)[j] == MakeAgent(SyntheticIdeology(rng, k + 11 * j), rng(k + 11 * j + 6), rng, k + 11 * j + 7)
    {
      assert k + 11 * j == k + 11 + 11 * (j - 1);
    }
  }

  /** A survey record; `None` is a missing field. */
  datatype Record = Record(ideology: Option<real>, y: Option<real>)

  /** JavaScript truthiness of a numeric field: present and not 0. */
  predicate Truthy(v: Option<real>)
  {
    v.Some? && v.value != 0.0
  }

  /** `d.ideology || (Math.random() * 2 - 1)`, `d.y || Math.random()`, then
      the constructor: a field that is missing or exactly 0 is redrawn. */
  function LoadRecord(d: Record, rng: Rng, k: nat): (r: (Agent, nat))
    ensures Truthy(d.ideology) ==> r.0.x == d.ideology.value
    ensures !Truthy(d.ideology) ==> r.0.x == rng(k) * 2.0 - 1.0
    ensures Truthy(d.y) ==> r.0.y == d.y.value
    ensures !Truthy(d.y) && UnitDraws(rng) ==> 0.0 <= r.0.y < 1.0
    ensures !Truthy(d.ideology) && UnitDraws(rng) ==> -1.0 <= r.0.x < 1.0
    ensures k + 4 <= r.1 <= k + 6
  {
    var k1 := if Truthy(d.ideology) then k else k + 1;
    var x := if Truthy(d.ideology) then d.ideology.value else rng(k) * 2.0 - 1.0;
    var k2 := if Truthy(d.y) then k1 else k1 + 1;
    var y := if Truthy(d.y) then d.y.value else rng(k1);
    (MakeAgent(x, y, rng, k2), k2 + 4)
  }

  function LoadRecords(recs: seq<Record>, rng: Rng, k: nat): (r: Population)
    ensures |r.agents| == |recs| && r.next >= k
    ensures forall j :: 0 <= j < |recs| && Truthy(recs[j].ideology) ==> r.agents[j].x == recs[j].ideology.value
    ensures forall j :: 0 <= j < |recs| && Truthy(recs[j].y) ==> r.agents[j].y == recs[j].y.value
    ensures UnitDraws(rng) ==> forall j :: 0 <= j < |recs| && !Truthy(recs[j].ideology) ==> -1.0 <= r.agents[j].x < 1.0
    ensures UnitDraws(rng) ==> forall j :: 0 <= j < |recs| && !Truthy(recs[j].y) ==> 0.0 <= r.agents[j].y < 1.0
  {
    if |recs| == 0 then Population([], k)
    else
      var first := LoadRecord(recs[0], rng, k);
      var rest := LoadRecords(recs[1..], rng, first.1);
      Population([first.0] + rest.agents, rest.next)
  }

  /** `loadRealData`: the first 600 records of the survey file, or nothing
      when the file cannot be fetched or parsed (`None`). */
  function LoadRealData(data: Option<seq<Record>>, rng: Rng, k: nat): (r: Population)
    ensures (data.None? || |data.value| == 0) ==> r == Population([], k)
    ensures data.Some? ==> |r.agents| == Min(|data.value|, PopulationSize)
    ensures data.Some? ==> forall j :: 0 <= j < |r.agents| && Truthy(data.value[j].ideology) ==>
      r.agents[j].x == data.value[j].ideology.value
    ensures r.next >= k
  {
    match data
    case None => Population([], k)
    case Some(recs) =>
      LoadRecords(if |recs| <= PopulationSize then recs else recs[..PopulationSize], rng, k)
  }

  function Min(a: nat, b: nat): nat
  {
    if a <= b then a else b
  }

  /** The agent index a draw u picks out of n: `floor(u * n)`. */
  function Pick(u: real, n: nat): int
  {
    (u * n as real).Floor
  }

  /** The indices picked by m draws from cursor k. */
  function Picks(rng: Rng, k: nat, n: nat, m: nat): (r: seq<int>)
    ensures |r| == m
    ensures forall d :: 0 <= d < m ==> r[d] == Pick(rng(k + d), n)
    decreases m
  {
    if m == 0 then [] else [Pick(rng(k), n)] + Picks(rng, k + 1, n, m - 1)
  }

  predicate NoDuplicates(s: seq<nat>)
  {
    forall a, b :: 0 <= a < b < |s| ==> s[a] != s[b]
  }

  /** Agent self's friend list after `tries` more draws: a picked agent is
      added unless it is self or already listed. */
  function AddFriends(friends: seq<nat>, self: nat, n: nat, rng: Rng, k: nat, tries: nat): (r: seq<nat>)
    requires UnitDraws(rng)
    requires self < n
    requires forall f :: f in friends ==> f < n && f != self
    requires NoDuplicates(friends)
    ensures |r| <= |friends| + tries
    ensures NoDuplicates(r)
    ensures forall f :: f in r ==> f < n && f != self
    ensures forall f: nat :: f in r <==> f in friends || (f in Picks(rng, k, n, tries) && f != self)
    decreases tries
  {
    if tries == 0 then friends
    else
      var u := rng(k);
      ScaledDrawIsIndex(u, n);
      var f: nat := Pick(u, n);
      var friends' := if f != self && f !in friends then friends + [f] else friends;
      var r := AddFriends(friends', self, n, rng, k + 1, tries - 1);
      assert Picks(rng, k, n, tries) == [f] + Picks(rng, k + 1, n, tries - 1);
      r
  }

  /** Agent self's friends out of a population of n: five draws from cursor k. */
  function FriendsOf(self: nat, n: nat, rng: Rng, k: nat): (r: seq<nat>)
    requires UnitDraws(rng)
    requires self < n
    ensures |r| <= FriendDraws && NoDuplicates(r) && self !in r
    ensures forall f :: f in r ==> f < n
    ensures forall f: nat :: f in r <==> f in Picks(rng, k, n, FriendDraws) && f != self
  {
    AddFriends([], self, n, rng, k, FriendDraws)
  }

  /** The friend lists of the first m agents, agent j's from the five
      draws at cursor k + 5j (see `LinkFirstDraws`). */
  function LinkFirst(n: nat, rng: Rng, k: nat, m: nat): (r: seq<seq<nat>>)
    requires UnitDraws(rng)
    requires m <= n
    ensures |r| == m
    ensures forall j :: 0 <= j < m ==> |r[j]| <= FriendDraws && NoDuplicates(r[j]) && j !in r[j]
    ensures forall j, f :: 0 <= j < m && f in r[j] ==> f < n
  {
    if m == 0 then []
    else LinkFirst(n, rng, k, m - 1) + [FriendsOf(m - 1, n, rng, k + 5 * (m - 1))]
  }

  /** Agent j's list is the one its own five draws give. */
  lemma {:induction false} LinkFirstDraws(n: nat, rng: Rng, k: nat, m: nat, j: nat)
    requires UnitDraws(rng)
    requires j < m <= n
    ensures LinkFirst(n, rng, k, m)[j] == FriendsOf(j, n, rng, k + 5 * j)
  {
    hide Pick, Picks, AddFriends, FriendsOf;
    var prev := LinkFirst(n, rng, k, m - 1);
    var mine := FriendsOf(m - 1, n, rng, k + 5 * (m - 1));
    assert LinkFirst(n, rng, k, m) == prev + [mine];
    if j < m - 1 {
      LinkFirstDraws(n, rng, k, m - 1, j);
      assert (prev + [mine])[j] == prev[j];
    } else {
      assert (prev + [mine])[j] == mine;
      assert k + 5 * (m - 1) == k + 5 * j;
    }
  }

  /** The social network of `initSim`: up to five friends per agent, never
      the agent itself, never the same friend twice. */
  function LinkFriends(n: nat, rng: Rng, k: nat): (r: seq<seq<nat>>)
    requires UnitDraws(rng)
    ensures NetworkValid(r, n)
    ensures forall i :: 0 <= i < n ==> |r[i]| <= FriendDraws && NoDuplicates(r[i]) && i !in r[i]
  {
    LinkFirst(n, rng, k, n)
  }

  /** Agent i is friends with f exactly when one of its five draws picked f
      and f is not i itself. */
  lemma FriendsArePicks(n: nat, rng: Rng, k: nat, i: nat, f: nat)
    requires UnitDraws(rng)
    requires i < n
    ensures f in LinkFriends(n, rng, k)[i] <==> f in Picks(rng, k + 5 * i, n, FriendDraws) && f != i
  {
    LinkFirstDraws(n, rng, k, n, i);
  }

  function MakeParty(name: string, ideology: real, color: string, yPos: real): Party
  {
    Party(name, color, ideology, ideology, yPos, 0.25)
  }

  /** The five parties, left to right. */
  function InitialParties(): (ps: seq<Party>)
    ensures |ps| == 5
    ensures forall q :: 0 <= q < 5 ==>
      ps[q].currentIdeology == ps[q].baseIdeology && ps[q].influenceRadius == 0.25
    ensures forall q, q' :: 0 <= q < q' < 5 ==> ps[q].baseIdeology < ps[q'].baseIdeology
    ensures forall q :: 0 <= q < 5 ==> -0.8 <= ps[q].baseIdeology <= 0.8 && 0.0 < ps[q].yPos < 1.0
  {
    [ MakeParty("Radical Left", -0.8, "#ef4444", 0.2),
      MakeParty("Center-Left Alliance", -0.3, "#22c55e", 0.4),
      MakeParty("Centrist Bloc", 0.0, "#94a3b8", 0.5),
      MakeParty("Nationalist Alliance", 0.3, "#3b82f6", 0.6),
      MakeParty("Religious Right", 0.8, "#a855f7", 0.8) ]
  }

  /** The state object before any initialisation. */
  function InitialState(): (s: Sim)
    ensures WellFormed(s) && LogCadence(s) && !s.paused
  {
    Sim([], [], [], 0, Measured(0.0), 100.0, 0.0, [], DefaultParams, false, [])
  }

  /** The load yields no agent exactly when there is no survey file or it
      holds no record; it then reads no draw. */
  lemma EmptyLoad(data: Option<seq<Record>>, rng: Rng, k: nat)
    ensures var loaded := LoadRealData(data, rng, k);
      && (|loaded.agents| == 0 <==> data.None? || |data.value| == 0)
      && (|loaded.agents| == 0 ==> loaded.next == k)
      && |loaded.agents| <= PopulationSize
  {
  }

  /** The survey population if any record loads, the synthetic one otherwise. */
  function InitialPopulation(data: Option<seq<Record>>, rng: Rng, k: nat): (r: Population)
    requires UnitDraws(rng)
    ensures 0 < |r.agents| <= PopulationSize
    ensures (data.None? || |data.value| == 0) ==> |r.agents| == PopulationSize && AllInBounds(r.agents)
    ensures (data.None? || |data.value| == 0) ==> forall j :: 0 <= j < |r.agents| ==>
      r.agents[j].x == SyntheticIdeology(rng, k + 11 * j) && -1.0 <= r.agents[j].x < 1.0
    ensures data.Some? && |data.value| > 0 ==> |r.agents| == Min(|data.value|, PopulationSize)
  {
    hide MakeAgent, SyntheticIdeology, LoadRecord, LoadRecords, LoadRealData, SyntheticAgents, AllInBounds, Min;
    var loaded := LoadRealData(data, rng, k);
    EmptyLoad(data, rng, k);
    // An empty load reads no draw, so the synthetic agents start at cursor k.
    if |loaded.agents| == 0 then SyntheticAgents(PopulationSize, rng, k) else loaded
  }

  /** `initSim`: the population, then the friendships, the party roster and
      the metrics reset. Parameters, the pause flag and the event log are kept. */
  function InitSim(s: Sim, data: Option<seq<Record>>, rng: Rng, k: nat): (r: (Sim, nat))
    requires UnitDraws(rng)
    ensures WellFormed(r.0) && LogCadence(r.0)
    ensures 0 < |r.0.agents| <= PopulationSize
    ensures (data.None? || |data.value| == 0) ==> |r.0.agents| == PopulationSize && AllInBounds(r.0.agents)
    ensures forall i :: 0 <= i < |r.0.agents| ==>
      |r.0.network[i]| <= FriendDraws && NoDuplicates(r.0.network[i]) && i !in r.0.network[i]
    ensures r.0.parties == InitialParties()
    ensures r.0.time == 0 && r.0.metricsLog == []
    ensures r.0.judiciaryCapacity == 100.0 && r.0.legislativeOutput == 0.0 && r.0.polarization == Measured(0.0)
    ensures r.0.params == s.params && r.0.paused == s.paused && r.0.events == s.events
    ensures data.Some? && |data.value| > 0 ==> |r.0.agents| == Min(|data.value|, PopulationSize)
    ensures var population := InitialPopulation(data, rng, k);
      && r.0.agents == population.agents
      && r.0.network == LinkFriends(|population.agents|, rng, population.next)
      && r.1 == population.next + FriendDraws * |population.agents|
  {
    hide InitialPopulation, LinkFriends, LinkFirst, FriendsOf, AddFriends, Pick, Picks, InitialParties;
    var population := InitialPopulation(data, rng, k);
    var network := LinkFriends(|population.agents|, rng, population.next);
    var sim := s.(
      agents := population.agents,
      network := network,
      parties := InitialParties(),
      metricsLog := [],
      time := 0,
      polarization := Measured(0.0),
      judiciaryCapacity := 100.0,
      legislativeOutput := 0.0);
    (sim, population.next + 5 * |population.agents|)
  }

  /** Each agent of a fresh simulation is friends with f exactly when one of
      its five draws, read after the population's, picked f and f is not
      itself. */
  lemma InitSimFriendsArePicks(s: Sim, data: Option<seq<Record>>, rng: Rng, k: nat, i: nat, f: nat)
    requires UnitDraws(rng)
    requires i < |InitSim(s, data, rng, k).0.agents|
    ensures var r := InitSim(s, data, rng, k);
      var first := InitialPopulation(data, rng, k).next;
      f in r.0.network[i] <==> f in Picks(rng, first + FriendDraws * i, |r.0.agents|, FriendDraws) && f != i
  {
    hide InitSim, InitialPopulation, LinkFriends, LinkFirst, FriendsOf, AddFriends, Pick, Picks, InitialParties;
    var population := InitialPopulation(data, rng, k);
    FriendsArePicks(|population.agents|, rng, population.next, i, f);
  }

  /** The reset button: the reset is logged at the current time, then the
      simulation is initialised again. */
  function Reset(s: Sim, data: Option<seq<Record>>, rng: Rng, k: nat): (r: (Sim, nat))
    requires UnitDraws(rng)
    ensures WellFormed(r.0) && LogCadence(r.0)
    ensures r.0.time == 0 && r.0.metricsLog == [] && r.0.judiciaryCapacity == 100.0
    ensures r.0.events == s.events + [Event(s.time, SystemReset)]
    ensures r.0.params == s.params && r.0.paused == s.paused
    ensures r.0.agents == InitialPopulation(data, rng, k).agents
  {
    InitSim(s.(events := s.events + [Event(s.time, SystemReset)]), data, rng, k)
  }
}

=== FILE: spatial_index.dfy ===
/** The uniform grid the update rebuilds every step to find nearby agents:
    ideology x is rescaled from [-1.2, 1.2] onto [0, 10] and y onto [0, 10],
    and an agent lives in the cell `(floor(..), floor(..))`. A bucket lists
    agent indices in population order. */
module SpatialIndex {
  import opened Numeric
  import opened Model

  type Cell = (int, int)
  type Bins = map<Cell, seq<nat>>

  function BinX(x: real): int
  {
    Rescale(x, -1.2, 1.2, 0.0, 10.0).Floor
  }

  function BinY(y: real): int
  {
    (y * 10.0).Floor
  }

  /** `getBin(x, y)`; the source spells the cell as the string "bx,by",
      which identifies the same pair of integers. */
  function CellOf(a: Agent): (c: Cell)
    ensures c.0 as real <= (a.x + 1.2) * 10.0 / 2.4 < c.0 as real + 1.0
    ensures c.1 as real <= a.y * 10.0 < c.1 as real + 1.0
    ensures InBounds(a) ==> 0 <= c.0 <= 9 && 0 <= c.1 <= 10
  {
    assert Rescale(a.x, -1.2, 1.2, 0.0, 10.0) == (a.x + 1.2) * 10.0 / 2.4;
    assert InBounds(a) ==> 0 <= BinX(a.x) <= 9 && 0 <= BinY(a.y) <= 10 by {
      if InBounds(a) {
        BinRange(a.x, a.y);
      }
    }
    (BinX(a.x), BinY(a.y))
  }

  /** Inside the position box, cells stay within a 10 by 11 grid. */
  lemma BinRange(x: real, y: real)
    requires -1.1 <= x <= 1.1
    requires 0.0 <= y <= 1.0
    ensures 0 <= BinX(x) <= 9
    ensures 0 <= BinY(y) <= 10
  {
    var sx := Rescale(x, -1.2, 1.2, 0.0, 10.0);
    assert sx == (x + 1.2) * 10.0 / 2.4;
    assert 0.0 < sx < 10.0;
  }

  /** Cells at most one column apart hold ideologies less than 0.48 apart. */
  lemma AdjacentColumnsAreClose(x1: real, x2: real)
    requires -1 <= BinX(x1) - BinX(x2) <= 1
    ensures Abs(x1 - x2) < 0.48
  {
    var s1 := Rescale(x1, -1.2, 1.2, 0.0, 10.0);
    var s2 := Rescale(x2, -1.2, 1.2, 0.0, 10.0);
    assert s1 == (x1 + 1.2) * 10.0 / 2.4;
    assert s2 == (x2 + 1.2) * 10.0 / 2.4;
    assert s1.Floor as real <= s1 < s1.Floor as real + 1.0;
    assert s2.Floor as real <= s2 < s2.Floor as real + 1.0;
    assert -2.0 < s1 - s2 < 2.0;
    assert x1 - x2 == (s1 - s2) * 0.24;
  }

  /** Every listed index is an agent of a population of size n. */
  predicate BinsValid(bins: Bins, n: nat)
  {
    forall c, j {:trigger j in bins[c]} :: c in bins && j in bins[c] ==> j < n
  }

  /** Indices strictly increasing: population order, each index once. */
  predicate InPopulationOrder(bucket: seq<nat>)
  {
    forall a, b :: 0 <= a < b < |bucket| ==> bucket[a] < bucket[b]
  }

  /** The buckets of the first m agents, filled in population order. */
  function BinsOfPrefix(agents: seq<Agent>, m: nat): (bins: Bins)
    requires m <= |agents|
    ensures forall c, j {:trigger j in bins[c]} :: c in bins && j in bins[c] ==> j < m && CellOf(agents[j]) == c
    ensures forall j :: 0 <= j < m ==> CellOf(agents[j]) in bins && j in bins[CellOf(agents[j])]
    ensures forall c :: c in bins ==> InPopulationOrder(bins[c])
  {
    if m == 0 then map[]
    else
      var bins := BinsOfPrefix(agents, m - 1);
      var c := CellOf(agents[m - 1]);
      var bucket := if c in bins then bins[c] else [];
      assert forall i :: i in bucket ==> c in bins && i in bins[c];
      AppendLater(bucket, m - 1);
      bins[c := bucket + [m - 1]]
  }

  /** Pushing an index larger than every listed one keeps the order. */
  lemma AppendLater(bucket: seq<nat>, j: nat)
    requires InPopulationOrder(bucket)
    requires forall i :: i in bucket ==> i < j
    ensures InPopulationOrder(bucket + [j])
  {
    var s := bucket + [j];
    forall a, b | 0 <= a < b < |s|
      ensures s[a] < s[b]
    {
      assert s[a] == bucket[a] && bucket[a] in bucket;
    }
  }

  /** The grid built at the start of a step: an index is in a bucket exactly
      when that agent's position falls in that cell, and each bucket lists
      its agents once each, in population order. */
  function BuildBins(agents: seq<Agent>): (bins: Bins)
    ensures BinsValid(bins, |agents|)
    ensures forall c, j {:trigger j in bins[c]} :: c in bins && j in bins[c] ==> CellOf(agents[j]) == c
    ensures forall j :: 0 <= j < |agents| ==> CellOf(agents[j]) in bins && j in bins[CellOf(agents[j])]
    ensures forall c :: c in bins ==> InPopulationOrder(bins[c])
  {
    BinsOfPrefix(agents, |agents|)
  }

  /** The cell dx columns and dy rows away from c. */
  function Offset(c: Cell, dx: int, dy: int): Cell
  {
    (c.0 + dx, c.1 + dy)
  }

  /** The 3x3 block around a cell, visited with dx outer and dy inner, both
      from -1 to 1: every one of the nine offsets is visited, once, in that
      order, and nothing else. */
  function Neighbourhood(c: Cell): (cells: seq<Cell>)
    ensures |cells| == 9
    ensures forall dx, dy :: -1 <= dx <= 1 && -1 <= dy <= 1 ==> cells[3 * dx + dy + 4] == Offset(c, dx, dy)
    ensures forall d :: d in cells ==> -1 <= d.0 - c.0 <= 1 && -1 <= d.1 - c.1 <= 1
  {
    var cx := c.0;
    var cy := c.1;
    [(cx - 1, cy - 1), (cx - 1, cy), (cx - 1, cy + 1),
     (cx, cy - 1), (cx, cy), (cx, cy + 1),
     (cx + 1, cy - 1), (cx + 1, cy), (cx + 1, cy + 1)]
  }

  /** Any two agents the 3x3 query brings together, at the positions the grid
      was built from, are less than 0.48 apart in ideology; so the affective
      repulsion test `|dx| > 1.0` can never hold between them. */
  lemma NeighboursAreClose(agents: seq<Agent>, i: nat, d: Cell, j: nat)
    requires i < |agents|
    requires d in Neighbourhood(CellOf(agents[i]))
    requires d in BuildBins(agents) && j in BuildBins(agents)[d]
    ensures Abs(agents[i].x - agents[j].x) < 0.48
  {
    AdjacentColumnsAreClose(agents[i].x, agents[j].x);
  }
}
